=== FILE: README.md ===
# Workshop form handling, modelled in Dafny

Workshop is a Statamic add-on that lets site visitors create and edit
entries, pages and globals through front-end forms. Template tags render
a form whose hidden `_meta` input carries the tag's parameters, encrypted.
A controller then takes the submission apart:

- it splits the submitted fields into a fixed meta record (`id`,
  `collection`, `date`, `fieldset`, `order`, `published`, `parent`,
  `redirect`, `slug`, `slugify`) and the content fields;
- it lets the decrypted `_meta` overlay override the meta record;
- it coerces the strings "true" and "false" to booleans;
- it picks the slug source and makes that field required in validation;
- it whitelists fields against the fieldset;
- it shapes upload results;
- it merges the new fields over stored data on update;
- it chooses where to redirect.

The repository keeps three generations of this logic, and the model
covers all three side by side:

- `Workshop/WorkshopController.php` and `Workshop/WorkshopTags.php`, the
  current ones;
- `WorkshopController.php` and `WorkshopTags.php`, the older ones;
- `WorkshopListener.php`, the oldest, an event listener with a
  seven-name meta set and no coercion.

PHP arrays are sequences of key/value entries with distinct keys, so
"the first field" is defined (`PhpArray`). PHP values and their boolean
reading are the `Value` datatype and `Truthy` (`PhpValue`). `explode`,
`join` and the two string helpers are in `PhpString`. Everything the
add-on calls but does not define is a function-valued field of
`Cms.Services` and is passed in as a parameter:

- Crypt encryption and decryption (a decryption that throws is `None`);
- Stringy's slugify and camelize;
- the fieldset validation-rule builder and Laravel's validator verdict;
- asset upload;
- the CMS lookups of fieldsets, collections and content;
- URL assembly and a saved object's URL.

Every operation is a pure function. A form submission ends in a
`Cms.Response`:
- `Rejected(bag, reason)`: sent back with errors in the named bag;
- `Saved(content, redirect)`: the content was saved once;
- `Fatal`: an uncaught error.

Modules: `PhpArray`, `PhpValue`, `PhpString`, `Cms`, `Classifier` (the
classification both controllers share), `Controller`, `LegacyController`,
`Tags`, `LegacyTags`, `Listener`, and `Versions` (cross-version lemmas).

## Model

| member | source | states |
|---|---|---|
| PhpArray.Set | Workshop/WorkshopController.php:193 | assigning a key adds it to the key set and makes it read back the new value. Every other key reads as before. An existing key keeps its position; a new key is appended at the end. |
| PhpArray.Filter | Workshop/WorkshopController.php:90 | a slot survives exactly when the predicate holds for it. The result keeps only original slots, in their original order. |
| PhpArray.GetFilter | Workshop/WorkshopController.php:422 | after filtering, a key reads its original value exactly when it was present and its slot passes the predicate; otherwise it is absent |
| PhpArray.Unset | Workshop/WorkshopController.php:382 | removing a key takes exactly that key out of the key set; every other key reads as before |
| PhpArray.Merge | Workshop/WorkshopController.php:307 | `array_merge` with string keys. The key set is the union. A key of the second array reads the second array's value; any other key reads the first array's value. The first array's keys stay in front, in order. |
| PhpValue.FilterTruthy | Workshop/WorkshopController.php:90 | `array_filter` keeps exactly the truthy slots: every remaining value is truthy, a key reads its value exactly when that value is truthy, and the order is kept |
| PhpValue.ArrayGet | Workshop/WorkshopController.php:107 | `array_get` on a key that exists yields that slot's value, even a null one; only a missing key yields the default |
| PhpValue.TruthyAgreesWithString | Workshop/WorkshopController.php:90 | for null, booleans, integers and strings, the boolean cast that `array_filter` and `if` apply is false exactly when the value prints as "" or "0" |
| PhpString.Explode | Workshop/WorkshopController.php:330 | `explode` returns at least one piece, and no piece contains the separator |
| PhpString.ExplodeSplits | WorkshopTags.php:61 | a string splits into two or more pieces exactly when it contains the separator |
| PhpString.ImplodeExplode | Workshop/WorkshopController.php:330-332 | joining the pieces of a string with the same separator gives the string back |
| PhpString.ExplodeImplode | Workshop/WorkshopController.php:330-332 | splitting a join of separator-free pieces gives back exactly those pieces |
| PhpString.ImplodeSnoc | Workshop/WorkshopController.php:332 | joining one more piece appends the separator and that piece to the joined string |
| PhpString.RemoveLeft | Workshop/WorkshopTags.php:275 | a string that starts with the prefix loses exactly that prefix; any other string is unchanged |
| PhpString.ReplaceChar | Workshop/WorkshopTags.php:53 | every occurrence of one character is replaced and nothing else changes; the length is kept |
| Cms.IsAllowed | Workshop/WorkshopController.php:445-452 | a user is refused exactly when login is enforced and the user is not logged in |
| Classifier.DefaultMetaKeys | Workshop/WorkshopController.php:52-63 | the default meta record has exactly the ten meta names as keys. `_meta`, `_token` and `title` are not among them. |
| Classifier.FormatValue | Workshop/WorkshopController.php:394-404 | a string becomes `true` exactly when it is "true" and `false` exactly when it is "false"; every other value comes back unchanged |
| Classifier.FormatValueIdempotent | Workshop/WorkshopController.php:394-404 | coercing an already coerced value changes nothing |
| Classifier.Overlay | Workshop/WorkshopController.php:366-371 | the meta record's key set never changes. A meta key present in the source takes the source's value, coerced; any other key keeps its value; keys the record lacks are ignored. |
| Classifier.Classify | Workshop/WorkshopController.php:363-386 | `filter` fails exactly when a truthy `_meta` does not decrypt, and the meta key set never changes. A meta key takes the coerced overlay value first, else the coerced field value, else its default. No meta key stays among the fields, and a truthy `_meta` is removed. Every other field keeps its value and order. |
| Classifier.SlugSource | Workshop/WorkshopController.php:107 | the slug source is the named field's value whenever that field exists, null included. Otherwise it is the first field's value, or false when there are no fields. |
| Classifier.TruthyTokens | Workshop/WorkshopController.php:330 | `array_filter` on rule tokens drops exactly "" and "0". Every kept token was in the input, every other input token is kept, and a list with no such token comes back unchanged. |
| Classifier.TruthyTokensAppend | Workshop/WorkshopController.php:330 | the filter works token by token: filtering a joined list joins the filtered lists, so the kept tokens keep their order |
| Classifier.AugmentRule | Workshop/WorkshopController.php:330-332 | the new rule splits into the old rule's non-empty tokens, in order, followed by a final `required`. An empty rule becomes exactly "required". |
| Classifier.AugmentRuleClean | Workshop/WorkshopController.php:330-332 | a rule none of whose tokens is "" or "0" becomes exactly that rule, then the separator, then `required` |
| Classifier.RequireSlugSource | Workshop/WorkshopController.php:329-332 | only the slug field's rule key is added or changed. Its rule splits into the previous rule's non-empty tokens followed by `required`; a missing rule counts as empty. |
| Classifier.KeepDeclared | Workshop/WorkshopController.php:418-422 | only fieldset fields and `title` remain. Each keeps its submitted value, and the order is kept. |
| Classifier.RedirectFor | Workshop/WorkshopController.php:430-437 | together with `save` (lines 350-354): the user goes back exactly when the redirect is falsy. "url", and `true` by PHP 7 loose comparison, go to the saved content's URL. Any other string is used as given. |
| Classifier.UrlSentinelRedirect | Workshop/WorkshopController.php:432 | PHP 7's loose `== 'url'`: a string matches only "url" itself. Every truthy match (the string, `true`) goes to the content's URL, while `0` matches but is falsy and goes back. Every other truthy redirect is used as the target. |
| Controller.InitializeFields | Workshop/WorkshopController.php:86-91 | initialisation fails exactly when the overlay does not decrypt. The meta key set is the ten names. No meta name, `_token` or `_meta` remains among the fields, and every remaining value is truthy. Every other key keeps its submitted value exactly when that value is truthy, and the request order is kept. |
| Controller.InitializeSlug | Workshop/WorkshopController.php:98-110 | a truthy slug is left alone. Otherwise the slug is made from the `slugify`-named field whenever it exists, else from the first field, else from false. Nothing else in the record changes. |
| Controller.Init | Workshop/WorkshopController.php:71-79 | refused exactly when login is enforced and missing. An allowed request fails exactly when a truthy `_meta` does not decrypt, and succeeds otherwise. The meta record is `initializeSlug` applied to `initializeFields`' result, and the fields are that result's fields. A truthy slug submitted as a field, with no overlay, survives. |
| Controller.Whitelist | Workshop/WorkshopController.php:412-423 | with the flag off the fields pass unchanged. With it on, only fieldset fields and `title` remain, each with its submitted value. |
| Controller.ShapeUploadAsWritten | Workshop/WorkshopController.php:183-190 | upload results as the code computes them. When `max_files` is not 1 the result is a list with one entry per file. For a non-asset field every entry is null. |
| Controller.NonAssetUploadSurvivesFilter | Workshop/WorkshopController.php:188-194 | a non-asset field with one file and `max_files` not 1 yields `[null]`, which is truthy and so survives `->filter()` |
| Controller.ShapeUpload | Workshop/WorkshopController.php:183-190 | corrected shaping. A non-asset field yields nothing truthy. An asset field with `max_files === 1` keeps the first file's URL. Otherwise it keeps every file's URL, in order. |
| Controller.UploadPass | Workshop/WorkshopController.php:175-195 | with either shaping: each field that was uploaded, has a configuration, and gives a truthy shaped result reads that result. Every other field reads its old value, and no key is lost. |
| Controller.UploadFiles | Workshop/WorkshopController.php:175-195 | the upload pass with the corrected shaping, as the entry, update and page operations use it |
| Controller.UploadFilesAsWritten | Workshop/WorkshopController.php:175-195 | the upload pass with the shaping as written |
| Controller.UploadFilesSkipsNonAssetFields | Workshop/WorkshopController.php:205-208 | with the corrected shaping, a field whose configuration is not an asset field keeps its submitted value |
| Controller.UploadAsWrittenOverwrites | Workshop/WorkshopController.php:183-194 | as written, one file uploaded to a non-asset field whose `max_files` is not 1 replaces the field's value by `[null]`; the corrected pass keeps the submitted value |
| Controller.UploadVersionsAgree | Workshop/WorkshopController.php:179-190 | the two passes agree on every field without a configuration and on every asset field, so they differ only on non-asset fields |
| Controller.PostEntryCreate | Workshop/WorkshopController.php:134-168 | a falsy collection is rejected in the `workshop` bag, and so is every other rejection. A truthy handle naming no collection is a fatal error exactly when that missing collection is used: for its fieldset when no fieldset is named, or for its path once validation passes. Validation that fails against the named or the collection's fieldset, with the slug field required, is rejected as invalid. Otherwise the entry is saved with the right slug, published flag and path. The date is set for date-ordered collections, and a truthy order otherwise. The data is the whitelisted upload-updated fields, and the redirect follows `getRedirect`. |
| Controller.Update | Workshop/WorkshopController.php:297-312 | failed validation is rejected in the default bag, before anything is saved. Otherwise the saved data's key set is old ∪ new, new values win, and untouched old values persist. The redirect follows `getRedirect`: the saved content's URL for the `url` sentinel, else the `redirect` value. |
| Controller.PostEntryUpdate | Workshop/WorkshopController.php:228-238 | a found entry runs `update` with the named fieldset, else the entry's own. A missing entry with a named fieldset still validates first (lines 299-303): failed validation is rejected in the default bag. Every other missing-entry request is an uncaught error, and only those. |
| Controller.DefaultPageFieldset | Workshop/WorkshopController.php:118-127 | the page default is used when that fieldset exists, else the theme default |
| Controller.PostPageCreate | Workshop/WorkshopController.php:245-265 | the request is rejected, in the default bag, exactly when validation against the named fieldset, else the page default, fails. Otherwise a page is created at the URL assembled from `parent` and `slug`, holding the whitelisted fields. The redirect follows `getRedirect` for the saved page. |
| LegacyController.StartFactory | WorkshopController.php:233-238 | content is looked up by `id` exactly when the id is truthy |
| LegacyController.ResolveCollection | WorkshopController.php:309-311 | a truthy collection handle is looked up and its lookup result is the collection; a falsy handle gives none |
| LegacyController.ResolveFieldset | WorkshopController.php:313-320 | the fieldset is the named one, else the loaded content's, else the collection's. There is none exactly when all three are absent. |
| LegacyController.WhitelistResolved | WorkshopController.php:322-327 | whitelisting happens only when a fieldset was resolved and the flag is on. Then the kept keys are exactly the fieldset keys and `title` that were present, each with its value and in their original order. |
| LegacyController.Slugify | WorkshopController.php:245-250 | the slug is always overwritten from the `slugify`-named field whenever it exists, else the first field, else false. Nothing else in the record changes. |
| LegacyController.Resolve | WorkshopController.php:75-80 | after `filter`: the content is loaded by id, the collection is the one the handle names, and the fieldset follows the precedence above. The fields are the classified fields whitelisted against that fieldset, so they are only ever removed and keep their values. The slug is recomputed from the final fields; every other meta attribute is unchanged. |
| LegacyController.Init | WorkshopController.php:51-81 | refused exactly when login is enforced and missing. An allowed request fails exactly when a truthy `_meta` does not decrypt, and otherwise succeeds with the resolution of the request's classification. No meta name remains among the fields. Without whitelisting, every other field, `_token` and falsy values included, keeps its submitted value. The slug is always recomputed. |
| LegacyController.Start | WorkshopController.php:57-80 | the allowed path of `init`: it fails, as malformed meta, exactly when a truthy `_meta` does not decrypt, and otherwise is the resolution of the request's classification, with the same field and slug facts as `init` |
| LegacyController.PostEntryCreate | WorkshopController.php:88-115 | without a resolved collection the request ends before validation. Otherwise failed validation is rejected in the `workshop` bag. A valid request saves an entry with the recomputed slug, the published flag, the collection's path and the fields as `init` left them, with no upload step. The date is set for date-ordered collections, and a truthy order otherwise. |
| LegacyController.Update | WorkshopController.php:174-187 | failed validation is rejected in the default bag. Without loaded content the merge is an uncaught error. Otherwise new fields win, old fields persist, the key set is the union, and the redirect follows `getRedirect`. |
| Tags.MetaPayload | Workshop/WorkshopTags.php:228-234 | the payload's keys are the tag parameters that name meta attributes, plus `id`. Each has its parameter's value, except `id`, which is always the resolved content id. |
| Tags.PayloadReachesController | Workshop/WorkshopTags.php:230-233 | when decryption inverts encryption, a form carrying the payload classifies without error. The controller's meta then holds the coerced payload values: the tag's id and every meta parameter the tag set. |
| Tags.ErrorMapInto | Workshop/WorkshopTags.php:274-276 | the error map's keys are the bag keys with a leading `fields.` removed. Each maps to that field's first message; when two keys collapse into one, the later wins. |
| Tags.ErrorsAndSuccess | Workshop/WorkshopTags.php:268-284 | `errors` and `error` are present exactly when the session has a `workshop` bag, and `success` exactly when the flash has it. `errors` lists every message and `error` is the stripped map. |
| Tags.EditData | Workshop/WorkshopTags.php:86 | content data keys override error and success keys, and the key set is the union. The same merge is at lines 105, 141, 160 and 186. |
| Tags.DefaultBagIsInvisible | Workshop/WorkshopTags.php:256-261 | errors flashed to the default bag, as `update` and page creation flash them, give no `error` data; the `workshop` bag does |
| Tags.FlashedBagVisible | Workshop/WorkshopTags.php:256-261 | `hasErrors` holds for a flashed bag exactly when the bag is called `workshop`, and never when nothing was flashed |
| Tags.Param | Workshop/WorkshopTags.php:181 | for every position, the key there wins exactly when it is set and not null and no earlier key is. With none set the default is used, and the result is always one of those values or the default. |
| Tags.ContentLocator | Workshop/WorkshopTags.php:211-220 | content is found by a truthy `id`, else by `url`, which falls back to the current URL when it is unset or null |
| Tags.GlobalLocator | Workshop/WorkshopTags.php:177-184 | a truthy `id` finds the global as content. Otherwise it is found by handle: `handle` when set, else `slug`, else `set`, else "global". |
| Tags.Dispatch | Workshop/WorkshopTags.php:51-58 | a handler runs exactly when the user is allowed and the camelized name exists, and it is that name. A refused user gets nothing. |
| LegacyTags.AttrPair | WorkshopTags.php:61-62 | an attr gives a pair exactly when it contains a colon, and the pair is the first piece, `="`, the second piece and `" `. |
| LegacyTags.AttrPairBare | WorkshopTags.php:61 | an attr without a colon leaves `list()` an undefined offset, so it gives no pair |
| LegacyTags.AttrPairOf | WorkshopTags.php:61-62 | `p:v` gives `p="v" ` |
| LegacyTags.AttrPairIgnoresRest | WorkshopTags.php:61 | everything after a second colon is ignored: `a:b:c` reads as `a:b` |
| LegacyTags.AttrString | WorkshopTags.php:59-64 | the attribute string exists exactly when every attr contains a colon |
| LegacyTags.AttrStringAppend | WorkshopTags.php:59-64 | the attribute string of joined lists is the join of their strings, so attributes appear in list order |
| LegacyTags.FormOpen | WorkshopTags.php:56-75 | the tag fails exactly when some attr has no colon. Otherwise it is `<form method="POST" action="`, the event URL, `" `, the attribute string, the multipart encoding when `files` is set, and `>`. |
| LegacyTags.EntryCreateHtml | WorkshopTags.php:37-48 | it fails exactly when the form fails. Otherwise it is the form opened for `entry.create`, then the tag contents unchanged, then `</form>`. |
| LegacyTags.Dispatch | WorkshopTags.php:22-29 | a handler runs exactly when the camelized name exists, with no login check |
| Listener.ListenerDefaultsKeys | WorkshopListener.php:43-51 | the listener's meta record has exactly seven names. `id`, `order`, `parent`, `_meta` and `_token` are not among them. |
| Listener.ListenerFilter | WorkshopListener.php:189-197 | each of the seven names present in the request moves to the meta record unchanged, without coercion. The defaults `published = true` and `slugify = title` hold otherwise. No meta name remains among the fields; every other field keeps its value and order. |
| Listener.ListenerFieldset | WorkshopListener.php:199-204 | a fieldset is loaded exactly when the fieldset attribute is truthy |
| Listener.Construct | WorkshopListener.php:115-124 | construction is `filter`, then `setFieldset`, then `slugify`: the slug is always made from the `slugify`-named field whenever it exists, else the first field, else false. The fields are exactly `filter`'s, in request order, so the first field is the request's first non-meta field. |
| Listener.ListenerKeepsNonMeta | WorkshopListener.php:43-51 | `id`, `order`, `parent`, `_meta` and `_token` stay content fields with their submitted values |
| Listener.EntryCreate | WorkshopListener.php:131-154 | failed validation goes back before anything is created. A valid request creates a dated entry from the slug, collection and fields. It saves and goes back, unless a truthy redirect ends in an error. |
| Versions.ExplicitSlugVersions | WorkshopController.php:245-250 | a submitted slug survives the current controller. The older controller overwrites it with one made from the slug source. |
| Versions.LatestKeepsSlug | Workshop/WorkshopController.php:101-103 | a truthy slug submitted without an overlay is the current controller's slug |
| Versions.LegacyRecomputesSlug | WorkshopController.php:80 | for an allowed user and no overlay, the older controller always initialises, and its slug is the recomputed one |
| Versions.CoercionVersions | WorkshopListener.php:193 | "false" for `published` becomes `false` in the controllers but stays the truthy string in the listener |
| Versions.MetaNameVersions | WorkshopListener.php:43-51 | `id`, `order` and `parent` leave the fields in the controllers but stay fields in the listener |
| Versions.FieldsetVersions | WorkshopListener.php:199-204 | with no loaded content and no collection, the older controller and the listener resolve the same fieldset |
| Versions.DispatchVersions | Workshop/WorkshopTags.php:55 | the current tags only add a login check. Whatever they run, the older tags run too, and for an allowed user both run the same handler. |

## Left out

- Input and output are not modelled:
  - the session and the success flash (the flash is implied by `Saved`);
  - redirect responses;
  - the `<input type="hidden">` markup around the payload;
  - template parsing. A form's contents are a parameter of `LegacyTags.EntryCreateHtml`.
- External collaborators are uninterpreted function parameters in `Cms.Services`:
  - Crypt;
  - Stringy;
  - the CMS lookups;
  - `ValidationBuilder` and Laravel's validator;
  - asset upload and `Path`/`URL` assembly;
  - `eventUrl`;
  - the `success` tag, which returns the flash flag itself.
- `Tags.Param` models the framework's `Tags::get` as "first key whose parameter is set and not null", as `isset` decides. That method is not part of this model. Likewise `getList('attr')`: `LegacyTags.FormOpen` takes the attribute list already split.
- The current tags' `formOpen` is not defined in `Workshop/WorkshopTags.php`, so their HTML is not modelled. Only their data is: the payload, and the errors and success merged with content data.
- A colon-less entry in the older tags' `attr` list raises an undefined-offset error in `list()`. `LegacyTags.FormOpen` and `LegacyTags.EntryCreateHtml` report it as no output; the error itself is not modelled.
- Laravel's `array_get` dot notation is not modelled. A key containing dots is looked up literally.
- `Classifier.SlugName` renders a non-string `slugify` value the way PHP interpolates it. Floats are not part of `Value`.
- Classifier.FormatValue: non-string inputs are returned unchanged. PHP 7's loose `switch` comparison would also turn the integer 0 into `true`. Submitted values are strings, so only a decrypted overlay could carry such a value.
- PHP integer keys are not modelled: every array key is a string, so `array_merge` never renumbers.
- Controller.PostEntryCreate: the saved data uses the corrected upload pass `Controller.UploadFiles`, not the pass as written (see Findings). The two differ only on non-asset fields (`Controller.UploadVersionsAgree`).
- Controller.Update: the saved data uses the corrected upload pass, as for `Controller.PostEntryCreate`.
- Controller.PostPageCreate: the saved data uses the corrected upload pass, as for `Controller.PostEntryCreate`.
- Controller.UploadPass: an upload keyed by a field is looked up with isset semantics. A field configuration that is an empty array, which PHP reads as falsy, is treated as present.
- Controller.FileList: a nested file array loses its keys; only the file order is kept.
- Tags.ErrorMapInto: a field with no messages maps to null, where PHP would read an undefined index. A message bag never holds such a field.
- The paths that fail in the source are not modelled:
  - the older `postEntryCreate` dumps and ends the request at `WorkshopController.php:92` when there is no collection. `LegacyController.PostEntryCreate` reports that path only as `Fatal`;
  - the older `postPageCreate` reads undefined properties at `WorkshopController.php:140`;
  - the current `postPageUpdate` and `postGlobalUpdate` (`Workshop/WorkshopController.php:272-290`) never load the content they update. `Controller.Update` takes that content as a parameter instead.
- Listener.EntryCreate: a truthy redirect reads an undefined variable at `WorkshopListener.php:150`, after the save. It is modelled as `Fatal`, so the saved entry is not visible in the result.
- Listener.EntryCreate: validation at `WorkshopListener.php:161-168` applies `fields.`-keyed rules to the unwrapped field map. The verdict is the uninterpreted validator's, so the model does not state that those rules never match.
- The listener's event-to-method table (`WorkshopListener.php:22-29`) is framework dispatch and is not modelled.
- The listener's entry date (the current time) is not modelled.
- How the framework acts on `init`'s early return, a redirect back, is not modelled. It is the `Unauthorized` error.

## Findings

| source | as written | input that shows it | evidently intended | confidence | as-written member | corrected member |
|---|---|---|---|---|---|---|
| Workshop/WorkshopController.php:183-193 | every file of a field is passed to `uploadFile`, which returns null for a field that is not an asset field. When `max_files` is not 1 the result is a non-empty list of nulls. That list is truthy, survives `->filter()`, and replaces the field's submitted value. | a fieldset field `notes` of type `text` with no `max_files`, and one file uploaded under `notes` | files for non-asset fields are discarded (lines 179 and 205 say so) and the field keeps its submitted value | not executed | Controller.UploadFilesAsWritten (shown by Controller.UploadAsWrittenOverwrites, via Controller.ShapeUploadAsWritten and Controller.NonAssetUploadSurvivesFilter) | Controller.UploadFiles (with Controller.ShapeUpload; proved by Controller.UploadFilesSkipsNonAssetFields) |

=== FILE: classifier.dfy ===
/** The request classifier the two controller versions share: splitting a
    submitted field map into the meta record and the content fields, the
    `_meta` overlay, value coercion, slug-source selection, the
    slug-field rule augmentation, whitelisting and redirect selection. */
module Classifier {
  import opened PhpArray
  import opened PhpValue
  import opened PhpString
  import opened Cms

  /** The ten meta attribute names. */
  const MetaNames: set<string> :=
    {"id", "collection", "date", "fieldset", "order", "published", "parent", "redirect", "slug", "slugify"}

  /** The meta record before a request is read. */
  const DefaultMeta: map<string, Value> :=
    map["id" := Null, "collection" := Null, "date" := Null, "fieldset" := Null,
        "order" := Null, "published" := Bool(true), "parent" := Str("/"),
        "redirect" := Null, "slug" := Null, "slugify" := Str("title")]

  lemma DefaultMetaKeys()
    ensures DefaultMeta.Keys == MetaNames
    ensures "_meta" !in MetaNames && "_token" !in MetaNames && "title" !in MetaNames
  {
  }

  /** A meta record paired with the content fields left once the meta
      attributes are taken out. */
  datatype Classified = Classified(meta: map<string, Value>, fields: Arr<Value>)

  /** `formatValue`: the strings "true" and "false" become booleans,
      everything else is kept as it is. */
  function FormatValue(v: Value): (r: Value)
    ensures v.Str? ==> (r == Bool(true) <==> v.s == "true")
    ensures v.Str? ==> (r == Bool(false) <==> v.s == "false")
    ensures v.Str? && v.s != "true" && v.s != "false" ==> r == v
    ensures !v.Str? ==> r == v
  {
    match v
    case Str(s) => if s == "true" then Bool(true) else if s == "false" then Bool(false) else v
    case _ => v
  }

  /** Coercion changes nothing a second time. */
  lemma FormatValueIdempotent(v: Value)
    ensures FormatValue(FormatValue(v)) == FormatValue(v)
  {
  }

  /** The assignments `$meta[$key] = coerce($field)` for every slot of
      `src` whose key the meta record already has; other keys are
      ignored. */
  function Overlay(meta: map<string, Value>, src: Arr<Value>, coerce: Value -> Value): (r: map<string, Value>)
    ensures r.Keys == meta.Keys
    ensures forall k :: k in meta ==>
              r[k] == (if Get(src, k).Some? then coerce(Get(src, k).value) else meta[k])
    decreases |src|
  {
    if src == [] then meta
    else
      var m := if src[0].key in meta then meta[src[0].key := coerce(src[0].val)] else meta;
      Overlay(m, src[1..], coerce)
  }

  /** Whether a field map carries a `_meta` overlay that the classifier
      will decrypt. */
  predicate HasOverlay(fields: seq<Entry<Value>>)
  {
    Truthy(ArrayGet(fields, "_meta", Null))
  }

  /** The decrypted overlay when there is one and it decrypts, else
      nothing to apply. */
  function OverlayOf(fields: seq<Entry<Value>>, decrypt: Value -> Option<Arr<Value>>): Arr<Value>
  {
    if HasOverlay(fields) && decrypt(Get(fields, "_meta").value).Some?
    then decrypt(Get(fields, "_meta").value).value
    else []
  }

  /** `filter`: every field whose name is a key of the meta record is
      coerced into the record and removed; then a truthy `_meta` field is
      decrypted, its recognised keys override the record, and it is
      removed. A `_meta` that fails to decrypt fails the request. */
  function Classify(meta: map<string, Value>, fields: Arr<Value>, decrypt: Value -> Option<Arr<Value>>): (r: Result<Classified>)
    requires "_meta" !in meta
    ensures r.Err? <==> HasOverlay(fields) && decrypt(Get(fields, "_meta").value).None?
    ensures r.Err? ==> r.error == MalformedMeta
    ensures r.Ok? ==> r.value.meta.Keys == meta.Keys
    // Precedence: overlay, then plain field, then the record's own value.
    ensures r.Ok? ==> forall k :: k in meta ==>
              r.value.meta[k] ==
                (if Get(OverlayOf(fields, decrypt), k).Some? then FormatValue(Get(OverlayOf(fields, decrypt), k).value)
                 else if Get(fields, k).Some? then FormatValue(Get(fields, k).value)
                 else meta[k])
    ensures r.Ok? ==> forall k :: k in KeySet(r.value.fields) ==> k !in meta
    ensures r.Ok? && HasOverlay(fields) ==> "_meta" !in KeySet(r.value.fields)
    ensures r.Ok? ==> forall k :: k !in meta && !(k == "_meta" && HasOverlay(fields)) ==>
              Get(r.value.fields, k) == Get(fields, k)
    ensures r.Ok? ==> Subsequence(r.value.fields, fields)
  {
    var plain := Overlay(meta, fields, FormatValue);
    var keep := (e: Entry<Value>) => e.key !in meta;
    var rest: Arr<Value> := Filter(fields, keep);
    forall k ensures Get(rest, k) == (if k in meta then None else Get(fields, k)) {
      GetFilter(fields, keep, k);
    }
    if HasOverlay(fields) then
      assert Get(rest, "_meta") == Get(fields, "_meta");
      match decrypt(Get(fields, "_meta").value)
      case None => Err(MalformedMeta)
      case Some(overlay) =>
        var out := Unset(rest, "_meta");
        SubsequenceTrans(out, rest, fields);
        Ok(Classified(Overlay(plain, overlay, FormatValue), out))
    else
      Ok(Classified(plain, rest))
  }

  /** `filter` against the default meta record, as both controllers run
      it: the record's keys are always the ten meta names. */
  function ClassifyDefault(fields: Arr<Value>, decrypt: Value -> Option<Arr<Value>>): (r: Result<Classified>)
    ensures r.Err? <==> HasOverlay(fields) && decrypt(Get(fields, "_meta").value).None?
    ensures r.Err? ==> r.error == MalformedMeta
    ensures r.Ok? ==> r.value.meta.Keys == MetaNames
  {
    DefaultMetaKeys();
    Classify(DefaultMeta, fields, decrypt)
  }

  /** The name of the field the slug is made from, as PHP spells the
      `slugify` attribute inside a string or an array key. */
  function SlugName(meta: map<string, Value>): string
    requires "slugify" in meta
  {
    Interpolate(meta["slugify"])
  }

  /** `array_get($fields, $name, current($fields))`: the named field's
      value whenever the field exists (null included), else the first
      field's value, else false. */
  function SlugSource(fields: seq<Entry<Value>>, name: string): (r: Value)
    ensures Get(fields, name).Some? ==> r == Get(fields, name).value
    ensures Get(fields, name).None? && fields != [] ==> r == fields[0].val
    ensures Get(fields, name).None? && fields == [] ==> r == Bool(false)
  {
    ArrayGet(fields, name, Current(fields))
  }

  /** `array_filter` on the pieces of a rule string: "" and "0" go. */
  function TruthyTokens(tokens: seq<string>): (r: seq<string>)
    ensures forall i :: 0 <= i < |r| ==> r[i] != "" && r[i] != "0" && r[i] in tokens
    ensures forall i :: 0 <= i < |tokens| && tokens[i] != "" && tokens[i] != "0" ==> tokens[i] in r
    ensures (forall i :: 0 <= i < |tokens| ==> tokens[i] != "" && tokens[i] != "0") ==> r == tokens
    ensures |r| <= |tokens|
  {
    if tokens == [] then []
    else if tokens[0] != "" && tokens[0] != "0" then [tokens[0]] + TruthyTokens(tokens[1..])
    else TruthyTokens(tokens[1..])
  }

  /** The filter works piece by piece: filtering a joined list is joining
      the filtered lists, so the surviving tokens keep their order. */
  lemma {:induction false} TruthyTokensAppend(a: seq<string>, b: seq<string>)
    ensures TruthyTokens(a + b) == TruthyTokens(a) + TruthyTokens(b)
    decreases |a|
  {
    if a == [] {
      assert a + b == b;
    } else {
      assert (a + b)[0] == a[0] && (a + b)[1..] == a[1..] + b;
      TruthyTokensAppend(a[1..], b);
    }
  }

  /** A rule string with `required` appended as its last token. */
  function AugmentRule(rule: string): (r: string)
    ensures Explode('|', r) == TruthyTokens(Explode('|', rule)) + ["required"]
    ensures rule == "" ==> r == "required"
  {
    var tokens := TruthyTokens(Explode('|', rule)) + ["required"];
    ExplodeImplode('|', tokens);
    Implode('|', tokens)
  }

  /** A rule with no empty or "0" token only gains `|required` at its
      end. */
  lemma AugmentRuleClean(rule: string)
    requires forall i :: 0 <= i < |Explode('|', rule)| ==> Explode('|', rule)[i] != "" && Explode('|', rule)[i] != "0"
    ensures AugmentRule(rule) == rule + "|required"
  {
    var pieces := Explode('|', rule);
    ImplodeExplode('|', rule);
    AugmentClean(rule, pieces);
  }

  lemma AugmentClean(rule: string, pieces: seq<string>)
    requires pieces == Explode('|', rule) && Implode('|', pieces) == rule
    requires forall i :: 0 <= i < |pieces| ==> pieces[i] != "" && pieces[i] != "0"
    ensures AugmentRule(rule) == rule + "|required"
  {
    var r := AugmentRule(rule);
    assert TruthyTokens(pieces) == pieces;
    JoinRequired(r, rule, pieces);
  }

  lemma JoinRequired(r: string, rule: string, pieces: seq<string>)
    requires |pieces| >= 1 && Implode('|', pieces) == rule
    requires Explode('|', r) == pieces + ["required"]
    ensures r == rule + "|required"
  {
    ImplodeExplode('|', r);
    ImplodeSnoc('|', pieces, "required");
    assert ['|'] + "required" == "|required";
  }

  /** The rule key of the field the slug is made from. */
  function SlugRuleKey(name: string): string
  {
    "fields." + name
  }

  /** The rule-map step of `getValidator`: the slug field's rule gets a
      trailing `required`, keeping its other non-empty tokens in order;
      a missing rule becomes exactly "required". */
  function RequireSlugSource(rules: Arr<string>, name: string): (r: Arr<string>)
    ensures KeySet(r) == KeySet(rules) + {SlugRuleKey(name)}
    ensures forall k :: k != SlugRuleKey(name) ==> Get(r, k) == Get(rules, k)
    ensures Get(r, SlugRuleKey(name)).Some?
    ensures Explode('|', Get(r, SlugRuleKey(name)).value) ==
            TruthyTokens(Explode('|', if Get(rules, SlugRuleKey(name)).Some? then Get(rules, SlugRuleKey(name)).value else ""))
            + ["required"]
  {
    var key := SlugRuleKey(name);
    var current := if Get(rules, key).Some? then Get(rules, key).value else "";
    Set(rules, key, AugmentRule(current))
  }

  /** `array_intersect_key($fields, array_flip($names + ['title']))`. */
  function KeepDeclared(fields: Arr<Value>, fieldset: Fieldset): (r: Arr<Value>)
    ensures forall k :: k in KeySet(r) ==> k in KeySet(fieldset.fields) || k == "title"
    ensures forall k :: Get(r, k) ==
              (if k in KeySet(fieldset.fields) || k == "title" then Get(fields, k) else None)
    ensures Subsequence(r, fields)
  {
    var keep := (e: Entry<Value>) => e.key in KeySet(fieldset.fields) || e.key == "title";
    var r := Filter(fields, keep);
    forall k ensures Get(r, k) == (if k in KeySet(fieldset.fields) || k == "title" then Get(fields, k) else None) {
      GetFilter(fields, keep, k);
    }
    r
  }

  /** PHP 7's loose `$redirect == 'url'`: true also matches, since the
      string is truthy. */
  predicate IsUrlSentinel(v: Value)
  {
    match v
    case Null => false
    case Bool(b) => b
    case Int(i) => i == 0
    case Str(s) => s == "url"
    case List(_) => false
    case Dict(_) => false
    case Upload(p) => p == "url"
  }

  /** Which redirects go to the saved content's URL: every truthy value
      loosely equal to "url" — the string itself, `true`, an upload whose
      path is "url" — while `0`, also loosely equal, is falsy and goes
      back; every other truthy value is used as the target. */
  lemma UrlSentinelRedirect(v: Value, urlPath: string)
    ensures IsUrlSentinel(v) && Truthy(v) ==> RedirectFor(v, urlPath) == To(Str(urlPath))
    ensures Truthy(v) && !IsUrlSentinel(v) ==> RedirectFor(v, urlPath) == To(v)
    ensures IsUrlSentinel(Int(0)) && RedirectFor(Int(0), urlPath) == Back
    ensures v.Str? ==> (IsUrlSentinel(v) <==> v.s == "url")
    ensures IsUrlSentinel(v) && !v.Int? ==> Truthy(v)
  {
  }

  /** `save()`'s choice of redirect, with `getRedirect()`: a falsy
      redirect goes back, the sentinel "url" goes to the saved content's
      URL, anything else is used as it is. */
  function RedirectFor(redirect: Value, urlPath: string): (r: Redirect)
    ensures !Truthy(redirect) <==> r == Back
    ensures redirect == Str("url") ==> r == To(Str(urlPath))
    ensures redirect.Str? && Truthy(redirect) && redirect.s != "url" ==> r == To(redirect)
    ensures redirect == Bool(true) ==> r == To(Str(urlPath))
  {
    if !Truthy(redirect) then Back
    else if IsUrlSentinel(redirect) then To(Str(urlPath))
    else To(redirect)
  }
}

=== FILE: cms.dfy ===
/** The CMS objects the addon manipulates and the collaborators it calls.

    Everything here is opaque to the addon: fieldsets and collections come
    from the CMS, encryption from the framework, slugs from Stringy, rule
    strings from the fieldset's validation builder, and the validator's
    verdict from Laravel. They are bundled in `Services` as plain
    functions so that every operation of the model is a pure function of
    its inputs and of these collaborators. */
module Cms {
  import opened PhpArray
  import opened PhpValue

  /** One field's configuration in a fieldset (`type`, `max_files`, and
      where uploaded assets go). */
  datatype FieldConfig = FieldConfig(fieldType: string, maxFiles: Value, folder: Value, container: Value)

  /** A fieldset: its field names, in order, with their configurations. */
  datatype Fieldset = Fieldset(handle: string, fields: Arr<FieldConfig>)

  /** A collection of entries: its storage path, its ordering ("date",
      "number" or "alphabetical") and its default fieldset. */
  datatype Collection = Collection(handle: string, path: string, order: string, fieldset: Fieldset)

  /** A content object already stored in the CMS. */
  datatype StoredContent = StoredContent(id: string, fieldset: Fieldset, data: Arr<Value>)

  /** The content object a request saves. */
  datatype Content =
      /** A new entry; `date` and `order` are None when they were not set. */
    | NewEntry(slug: Value, collectionPath: string, published: Value,
               date: Option<Value>, order: Option<Value>, data: Arr<Value>)
      /** A new entry whose date is the current time (the oldest version). */
    | NewDatedEntry(slug: Value, collection: Value, data: Arr<Value>)
    | NewPage(url: string, data: Arr<Value>)
    | Existing(stored: StoredContent)

  /** Where the browser is sent after a successful save. */
  datatype Redirect = Back | To(target: Value)

  datatype Reason = MissingCollection | Invalid

  /** How a form submission ends. */
  datatype Response =
      /** Redirect back with the input and errors, in the named error bag. */
    | Rejected(bag: string, reason: Reason)
      /** The content was saved once, the success flash set, then redirect. */
    | Saved(content: Content, redirect: Redirect)
      /** An uncaught error: a method called on a missing object, or an
          undefined variable read. */
    | Fatal

  datatype Error = Unauthorized | MalformedMeta

  datatype Result<+T> = Ok(value: T) | Err(error: Error)

  /** The addon's configuration flags and the theme's fieldset defaults. */
  datatype Config = Config(
    whitelist: bool,
    enforceAuth: bool,
    defaultPageFieldset: Value,
    defaultFieldset: Value)

  /** The collaborators, each as an uninterpreted function. */
  datatype Services = Services(
    decrypt: Value -> Option<Arr<Value>>,      // Crypt::decrypt; None when it throws
    encrypt: Arr<Value> -> string,             // Crypt::encrypt
    slugify: Value -> string,                  // Stringy::slugify
    camelize: string -> string,                // Stringy::camelize
    buildRules: (Option<Fieldset>, Arr<Value>) -> Arr<string>,  // ValidationBuilder::rules
    validates: (Arr<Value>, Arr<string>) -> bool,               // ! Validator::fails
    storeAsset: (Value, FieldConfig) -> string, // upload one file, return its URL
    urlPath: Content -> string,                // urlPath() of the saved content
    fieldsetNamed: Value -> Fieldset,          // Fieldset::get
    fieldsetExists: Value -> bool,             // Fieldset::exists
    collectionNamed: Value -> Option<Collection>,   // Collection::whereHandle
    findContent: Value -> Option<StoredContent>,    // Content::find / uuidRaw
    assembleUrl: (Value, Value) -> string      // URL::assemble
  )

  /** `isAllowed()`: only an enforced login requirement that is not met
      refuses the user. */
  function IsAllowed(enforceAuth: bool, authenticated: bool): (r: bool)
    ensures !r <==> enforceAuth && !authenticated
  {
    !enforceAuth || authenticated
  }
}

=== FILE: controller.dfy ===
/** The current form controller (Workshop/WorkshopController.php): request
    initialisation, entry creation, entry update and page creation. */
module Controller {
  import opened PhpArray
  import opened PhpValue
  import opened PhpString
  import opened Cms
  import opened Classifier

  /** `initializeFields`: the request without `_token`, classified against
      the default meta record, with every falsy field dropped. */
  function InitializeFields(request: Arr<Value>, decrypt: Value -> Option<Arr<Value>>): (r: Result<Classified>)
    ensures r.Err? <==> HasOverlay(request) && decrypt(Get(request, "_meta").value).None?
    ensures r.Err? ==> r.error == MalformedMeta
    ensures r.Ok? ==> r.value.meta.Keys == MetaNames
    ensures r.Ok? ==> forall k :: k in KeySet(r.value.fields) ==>
              k !in MetaNames && k != "_token" && k != "_meta"
    ensures r.Ok? ==> forall i :: 0 <= i < |r.value.fields| ==> Truthy(r.value.fields[i].val)
    ensures r.Ok? ==> forall k :: k !in MetaNames && k != "_token" && k != "_meta" ==>
              Get(r.value.fields, k) ==
                (if Get(request, k).Some? && Truthy(Get(request, k).value) then Get(request, k) else None)
    ensures r.Ok? ==> Subsequence(r.value.fields, request)
  {
    DefaultMetaKeys();
    var submitted: Arr<Value> := Unset(request, "_token");
    assert Get(submitted, "_meta") == Get(request, "_meta");
    match Classify(DefaultMeta, submitted, decrypt)
    case Err(e) => Err(e)
    case Ok(c) =>
      InitializedFields(request, submitted, c);
      Ok(Classified(c.meta, FilterTruthy(c.fields)))
  }

  /** The fields `initializeFields` keeps, given the classifier's result
      on the request without `_token`. */
  lemma InitializedFields(request: Arr<Value>, submitted: Arr<Value>, c: Classified)
    requires submitted == Unset(request, "_token")
    requires forall k :: k in KeySet(c.fields) ==> k !in MetaNames
    requires HasOverlay(submitted) ==> "_meta" !in KeySet(c.fields)
    requires forall k :: k !in MetaNames && !(k == "_meta" && HasOverlay(submitted)) ==>
               Get(c.fields, k) == Get(submitted, k)
    requires Subsequence(c.fields, submitted)
    ensures forall k :: k in KeySet(FilterTruthy(c.fields)) ==> k !in MetaNames && k != "_token" && k != "_meta"
    ensures forall k :: k !in MetaNames && k != "_token" && k != "_meta" ==>
              Get(FilterTruthy(c.fields), k) ==
                (if Get(request, k).Some? && Truthy(Get(request, k).value) then Get(request, k) else None)
    ensures Subsequence(FilterTruthy(c.fields), request)
  {
    DefaultMetaKeys();
    var fields := FilterTruthy(c.fields);
    NoMetaField(submitted, c);
    forall k | k !in MetaNames && k != "_token" && k != "_meta"
      ensures Get(fields, k) == (if Get(request, k).Some? && Truthy(Get(request, k).value) then Get(request, k) else None)
    {
      assert Get(c.fields, k) == Get(submitted, k);
    }
    forall k | k in KeySet(fields)
      ensures k !in MetaNames && k != "_token" && k != "_meta"
    {
      assert Get(fields, k).Some?;
    }
    SubsequenceTrans(fields, c.fields, submitted);
    SubsequenceTrans(fields, submitted, request);
  }

  /** A falsy `_meta` stays among the classified fields, and so
      `array_filter` removes it. */
  lemma NoMetaField(submitted: Arr<Value>, c: Classified)
    requires "_meta" !in MetaNames
    requires HasOverlay(submitted) ==> "_meta" !in KeySet(c.fields)
    requires !HasOverlay(submitted) ==> Get(c.fields, "_meta") == Get(submitted, "_meta")
    ensures Get(FilterTruthy(c.fields), "_meta") == None
  {
  }

  /** `initializeSlug`: a truthy slug is kept; otherwise the slug is made
      from the field named by `slugify`, else from the first field. */
  function InitializeSlug(c: Classified, slugify: Value -> string): (r: map<string, Value>)
    requires "slug" in c.meta && "slugify" in c.meta
    ensures r.Keys == c.meta.Keys
    ensures forall k :: k in r && k != "slug" ==> r[k] == c.meta[k]
    ensures Truthy(c.meta["slug"]) ==> r["slug"] == c.meta["slug"]
    ensures !Truthy(c.meta["slug"]) && Get(c.fields, SlugName(c.meta)).Some? ==>
              r["slug"] == Str(slugify(Get(c.fields, SlugName(c.meta)).value))
    ensures !Truthy(c.meta["slug"]) && Get(c.fields, SlugName(c.meta)).None? && c.fields != [] ==>
              r["slug"] == Str(slugify(c.fields[0].val))
    ensures !Truthy(c.meta["slug"]) && c.fields == [] ==> r["slug"] == Str(slugify(Bool(false)))
  {
    if Truthy(c.meta["slug"]) then c.meta
    else c.meta["slug" := Str(slugify(SlugSource(c.fields, SlugName(c.meta))))]
  }

  /** `init`: refuse a user the configuration does not allow, then
      initialise fields and slug. */
  function Init(request: Arr<Value>, cfg: Config, authenticated: bool, svc: Services): (r: Result<Classified>)
    ensures r == Err(Unauthorized) <==> cfg.enforceAuth && !authenticated
    ensures r == Err(MalformedMeta) <==>
              IsAllowed(cfg.enforceAuth, authenticated) && HasOverlay(request) && svc.decrypt(Get(request, "_meta").value).None?
    ensures r.Ok? <==>
              IsAllowed(cfg.enforceAuth, authenticated) && !(HasOverlay(request) && svc.decrypt(Get(request, "_meta").value).None?)
    ensures r.Ok? ==> r.value.meta.Keys == MetaNames
    ensures r.Ok? ==> (InitializeFields(request, svc.decrypt).Ok?
              && r.value.meta == InitializeSlug(InitializeFields(request, svc.decrypt).value, svc.slugify))
    ensures r.Ok? ==> (InitializeFields(request, svc.decrypt).Ok?
              && r.value.fields == InitializeFields(request, svc.decrypt).value.fields)
    ensures r.Ok? && Get(request, "slug").Some? && Truthy(FormatValue(Get(request, "slug").value))
              && !HasOverlay(request) ==>
              r.value.meta["slug"] == FormatValue(Get(request, "slug").value)
  {
    if !IsAllowed(cfg.enforceAuth, authenticated) then Err(Unauthorized)
    else
      match InitializeFields(request, svc.decrypt)
      case Err(e) => Err(e)
      case Ok(c) =>
        SubmittedSlugKept(request, svc.decrypt, c);
        Ok(Classified(InitializeSlug(c, svc.slugify), c.fields))
  }

  /** Without an overlay, a slug submitted as a field is classified into
      the meta record, coerced. */
  lemma SubmittedSlugKept(request: Arr<Value>, decrypt: Value -> Option<Arr<Value>>, c: Classified)
    requires InitializeFields(request, decrypt) == Ok(c)
    ensures Get(request, "slug").Some? && !HasOverlay(request) ==>
              c.meta["slug"] == FormatValue(Get(request, "slug").value)
  {
    if Get(request, "slug").Some? && !HasOverlay(request) {
      var submitted: Arr<Value> := Unset(request, "_token");
      InitializedMeta(request, decrypt, c);
      SlugOfSubmission(request, submitted, decrypt);
    }
  }

  /** Taking `_token` out changes neither the overlay nor the slug
      field. */
  lemma SlugOfSubmission(request: Arr<Value>, submitted: Arr<Value>, decrypt: Value -> Option<Arr<Value>>)
    requires submitted == Unset(request, "_token")
    requires Get(request, "slug").Some? && !HasOverlay(request)
    ensures ClassifyDefault(submitted, decrypt).Ok?
    ensures ClassifyDefault(submitted, decrypt).value.meta["slug"] == FormatValue(Get(request, "slug").value)
  {
    assert Get(submitted, "_meta") == Get(request, "_meta");
    assert Get(submitted, "slug") == Get(request, "slug");
    DefaultPlainFieldWins(submitted, decrypt, "slug");
  }

  /** `PlainFieldWins` for the default meta record. */
  lemma DefaultPlainFieldWins(fields: Arr<Value>, decrypt: Value -> Option<Arr<Value>>, k: string)
    requires k in MetaNames && !HasOverlay(fields) && Get(fields, k).Some?
    ensures ClassifyDefault(fields, decrypt).Ok?
    ensures ClassifyDefault(fields, decrypt).value.meta[k] == FormatValue(Get(fields, k).value)
  {
    DefaultMetaKeys();
    PlainFieldWins(DefaultMeta, fields, decrypt, k);
  }

  /** The meta record `initializeFields` yields is the classifier's. */
  lemma InitializedMeta(request: Arr<Value>, decrypt: Value -> Option<Arr<Value>>, c: Classified)
    requires InitializeFields(request, decrypt) == Ok(c)
    ensures ClassifyDefault(Unset(request, "_token"), decrypt).Ok?
    ensures c.meta == ClassifyDefault(Unset(request, "_token"), decrypt).value.meta
  {
    DefaultMetaKeys();
    var submitted: Arr<Value> := Unset(request, "_token");
    assert Get(submitted, "_meta") == Get(request, "_meta");
  }

  /** Without an overlay, a meta key submitted as a field takes that
      field's coerced value. */
  lemma PlainFieldWins(meta: map<string, Value>, fields: Arr<Value>, decrypt: Value -> Option<Arr<Value>>, k: string)
    requires "_meta" !in meta && k in meta
    requires !HasOverlay(fields) && Get(fields, k).Some?
    ensures Classify(meta, fields, decrypt).Ok?
    ensures Classify(meta, fields, decrypt).value.meta[k] == FormatValue(Get(fields, k).value)
  {
    assert OverlayOf(fields, decrypt) == [];
  }

  /** `whitelist`: with the flag off the fields pass unchanged; with it
      on only the fieldset's fields and `title` remain. */
  function Whitelist(fields: Arr<Value>, on: bool, fieldset: Fieldset): (r: Arr<Value>)
    ensures !on ==> r == fields
    ensures on ==> forall k :: k in KeySet(r) ==> k in KeySet(fieldset.fields) || k == "title"
    ensures on ==> (forall k :: Get(r, k) == (if k in KeySet(fieldset.fields) || k == "title" then Get(fields, k) else None))
  {
    if on then KeepDeclared(fields, fieldset) else fields
  }

  /** The files submitted under one name, as a list. */
  function FileList(files: Value): seq<Value>
  {
    match files
    case List(items) => items
    case Dict(entries) => seq(|entries|, i requires 0 <= i < |entries| => entries[i].val)
    case _ => [files]
  }

  /** `uploadFile` over every file of a field, then `max_files === 1`
      keeps the first result and anything else keeps the list. This is
      the shaping as written: a field that is not an asset field gets a
      null for each of its files. */
  function ShapeUploadAsWritten(files: Value, cfg: FieldConfig, store: (Value, FieldConfig) -> string): (r: Value)
    ensures cfg.maxFiles != Int(1) ==> r.List? && |r.items| == |FileList(files)|
    ensures cfg.fieldType != "assets" && r.List? ==> forall i :: 0 <= i < |r.items| ==> r.items[i] == Null
    ensures cfg.fieldType != "assets" && cfg.maxFiles == Int(1) ==> r == Null
  {
    var items := FileList(files);
    var urls := seq(|items|, i requires 0 <= i < |items| =>
                      if cfg.fieldType != "assets" then Null else Str(store(items[i], cfg)));
    if cfg.maxFiles == Int(1) then (if |urls| > 0 then urls[0] else Null)
    else List(urls)
  }

  /** A non-asset field whose `max_files` is not 1 gets a non-empty list
      of nulls, which `->filter()` keeps, so the field's submitted value
      is overwritten by it instead of being skipped. */
  lemma NonAssetUploadSurvivesFilter(files: Value, cfg: FieldConfig, store: (Value, FieldConfig) -> string)
    requires cfg.fieldType != "assets" && cfg.maxFiles != Int(1)
    requires !files.List? && !files.Dict?
    ensures Truthy(ShapeUploadAsWritten(files, cfg, store))
    ensures ShapeUploadAsWritten(files, cfg, store) == List([Null])
  {
  }

  /** The corrected shaping: a field that is not an asset field yields
      nothing, so it is skipped. An asset field keeps one URL when
      `max_files === 1` and the list of URLs otherwise. */
  function ShapeUpload(files: Value, cfg: FieldConfig, store: (Value, FieldConfig) -> string): (r: Value)
    ensures cfg.fieldType != "assets" ==> !Truthy(r)
    ensures cfg.fieldType == "assets" && cfg.maxFiles == Int(1) && FileList(files) != [] ==>
              r == Str(store(FileList(files)[0], cfg))
    ensures cfg.fieldType == "assets" && cfg.maxFiles != Int(1) ==>
              r.List? && |r.items| == |FileList(files)|
              && forall i :: 0 <= i < |r.items| ==> r.items[i] == Str(store(FileList(files)[i], cfg))
  {
    if cfg.fieldType != "assets" then Null else ShapeUploadAsWritten(files, cfg, store)
  }

  /** The shaping an upload pass uses: the one written in the source, or
      the corrected one. */
  function Shape(asWritten: bool, files: Value, cfg: FieldConfig, store: (Value, FieldConfig) -> string): Value
  {
    if asWritten then ShapeUploadAsWritten(files, cfg, store) else ShapeUpload(files, cfg, store)
  }

  /** What an upload does to field `k`: the shaped upload result, when `k`
      was uploaded, has a field configuration and the result is truthy. */
  function Uploaded(files: seq<Entry<Value>>, fieldset: Fieldset, store: (Value, FieldConfig) -> string,
                    asWritten: bool, k: string): Option<Value>
  {
    if Get(files, k).Some? && Get(fieldset.fields, k).Some?
       && Truthy(Shape(asWritten, Get(files, k).value, Get(fieldset.fields, k).value, store))
    then Some(Shape(asWritten, Get(files, k).value, Get(fieldset.fields, k).value, store))
    else None
  }

  /** `uploadFiles` with either shaping: every uploaded field with a
      configuration in the fieldset is replaced by its truthy shaped
      result; nothing else changes. */
  function UploadPass(fields: Arr<Value>, files: Arr<Value>, fieldset: Fieldset,
                      store: (Value, FieldConfig) -> string, asWritten: bool): (r: Arr<Value>)
    ensures KeySet(fields) <= KeySet(r)
    ensures forall k :: Get(r, k) ==
              (if Uploaded(files, fieldset, store, asWritten, k).Some? then Uploaded(files, fieldset, store, asWritten, k)
               else Get(fields, k))
    decreases |files|
  {
    if files == [] then fields
    else
      var k := files[0].key;
      var cfg := Get(fieldset.fields, k);
      var next: Arr<Value> :=
        if cfg.Some? && Truthy(Shape(asWritten, files[0].val, cfg.value, store))
        then Set(fields, k, Shape(asWritten, files[0].val, cfg.value, store))
        else fields;
      var tail: Arr<Value> := files[1..];
      UploadedTail(files, fieldset, store, asWritten);
      UploadPass(next, tail, fieldset, store, asWritten)
  }

  /** After the first upload is handled, the remaining uploads decide
      every other field and leave the first upload's field alone. */
  lemma UploadedTail(files: Arr<Value>, fieldset: Fieldset, store: (Value, FieldConfig) -> string, asWritten: bool)
    requires files != []
    ensures forall j :: j != files[0].key ==>
              Uploaded(files, fieldset, store, asWritten, j) == Uploaded(files[1..], fieldset, store, asWritten, j)
    ensures Uploaded(files[1..], fieldset, store, asWritten, files[0].key) == None
  {
    var tail: Arr<Value> := files[1..];
    assert Get(tail, files[0].key) == None;
  }

  /** `uploadFiles` with the corrected shaping, as the operations below
      use it. */
  function UploadFiles(fields: Arr<Value>, files: Arr<Value>, fieldset: Fieldset,
                       store: (Value, FieldConfig) -> string): (r: Arr<Value>)
    ensures KeySet(fields) <= KeySet(r)
    ensures forall k :: Get(r, k) ==
              (if Uploaded(files, fieldset, store, false, k).Some? then Uploaded(files, fieldset, store, false, k)
               else Get(fields, k))
  {
    UploadPass(fields, files, fieldset, store, false)
  }

  /** `uploadFiles` as written, with the shaping that gives a non-asset
      field a list of nulls; nested file keys and empty configurations
      are read as `FileList` and `UploadPass` read them. */
  function UploadFilesAsWritten(fields: Arr<Value>, files: Arr<Value>, fieldset: Fieldset,
                                store: (Value, FieldConfig) -> string): (r: Arr<Value>)
    ensures KeySet(fields) <= KeySet(r)
    ensures forall k :: Get(r, k) ==
              (if Uploaded(files, fieldset, store, true, k).Some? then Uploaded(files, fieldset, store, true, k)
               else Get(fields, k))
  {
    UploadPass(fields, files, fieldset, store, true)
  }

  /** With the corrected shaping, a field that is not an asset field keeps
      its submitted value. */
  lemma UploadFilesSkipsNonAssetFields(fields: Arr<Value>, files: Arr<Value>, fieldset: Fieldset,
                                       store: (Value, FieldConfig) -> string, k: string)
    requires Get(fieldset.fields, k).Some? && Get(fieldset.fields, k).value.fieldType != "assets"
    ensures Get(UploadFiles(fields, files, fieldset, store), k) == Get(fields, k)
  {
  }

  /** As written, a single file uploaded to a non-asset field whose
      `max_files` is not 1 replaces that field's value by `[null]`, where
      the corrected pass leaves it alone. */
  lemma UploadAsWrittenOverwrites(fields: Arr<Value>, files: Arr<Value>, fieldset: Fieldset,
                                  store: (Value, FieldConfig) -> string, k: string)
    requires Get(fieldset.fields, k).Some?
    requires Get(fieldset.fields, k).value.fieldType != "assets" && Get(fieldset.fields, k).value.maxFiles != Int(1)
    requires Get(files, k).Some? && !Get(files, k).value.List? && !Get(files, k).value.Dict?
    ensures Get(UploadFilesAsWritten(fields, files, fieldset, store), k) == Some(List([Null]))
    ensures Get(UploadFiles(fields, files, fieldset, store), k) == Get(fields, k)
  {
    NonAssetUploadSurvivesFilter(Get(files, k).value, Get(fieldset.fields, k).value, store);
  }

  /** The two passes differ only on non-asset fields: on every field
      without a configuration, and on every asset field, they agree. */
  lemma UploadVersionsAgree(fields: Arr<Value>, files: Arr<Value>, fieldset: Fieldset,
                            store: (Value, FieldConfig) -> string, k: string)
    requires Get(fieldset.fields, k).None? || Get(fieldset.fields, k).value.fieldType == "assets"
    ensures Get(UploadFilesAsWritten(fields, files, fieldset, store), k) == Get(UploadFiles(fields, files, fieldset, store), k)
  {
  }

  /** `postEntryCreate`: a falsy collection, or failed validation, sends
      the user back with errors in the `workshop` bag before any upload or
      save; otherwise the entry is built, saved once, and redirected. */
  function PostEntryCreate(c: Classified, cfg: Config, files: Arr<Value>, svc: Services): (r: Response)
    requires c.meta.Keys == MetaNames
    ensures !Truthy(c.meta["collection"]) ==> r == Rejected("workshop", MissingCollection)
    ensures r.Rejected? ==> r.bag == "workshop"
    // A missing collection is an uncaught error once it is used: at once
    // without a named fieldset, after validation otherwise.
    ensures r == Fatal <==>
              Truthy(c.meta["collection"]) && svc.collectionNamed(c.meta["collection"]).None?
              && (!Truthy(c.meta["fieldset"]) || Passes(c, svc.fieldsetNamed(c.meta["fieldset"]), svc))
    ensures Truthy(c.meta["collection"]) && svc.collectionNamed(c.meta["collection"]).Some?
              && !Passes(c, EntryFieldset(c.meta, svc.collectionNamed(c.meta["collection"]).value, svc), svc) ==>
              r == Rejected("workshop", Invalid)
    ensures Truthy(c.meta["collection"]) && svc.collectionNamed(c.meta["collection"]).None?
              && Truthy(c.meta["fieldset"]) && !Passes(c, svc.fieldsetNamed(c.meta["fieldset"]), svc) ==>
              r == Rejected("workshop", Invalid)
    ensures r.Saved? <==>
              Truthy(c.meta["collection"]) && svc.collectionNamed(c.meta["collection"]).Some?
              && svc.validates(c.fields, RequireSlugSource(
                   svc.buildRules(Some(EntryFieldset(c.meta, svc.collectionNamed(c.meta["collection"]).value, svc)), c.fields),
                   SlugName(c.meta)))
    ensures r.Saved? ==> (
              && r.content.NewEntry?
              && r.content.slug == c.meta["slug"]
              && r.content.published == c.meta["published"]
              && r.content.collectionPath == svc.collectionNamed(c.meta["collection"]).value.path
              && r.redirect == RedirectFor(c.meta["redirect"], svc.urlPath(r.content)))
    ensures r.Saved? ==>
              var col := svc.collectionNamed(c.meta["collection"]).value;
              && (col.order == "date" ==> r.content.date == Some(c.meta["date"]) && r.content.order == None)
              && (col.order != "date" && Truthy(c.meta["order"]) ==> r.content.order == Some(c.meta["order"]) && r.content.date == None)
              && (col.order != "date" && !Truthy(c.meta["order"]) ==> r.content.order == None && r.content.date == None)
    ensures r.Saved? ==>
              var fs := EntryFieldset(c.meta, svc.collectionNamed(c.meta["collection"]).value, svc);
              r.content.data == Whitelist(UploadFiles(c.fields, files, fs, svc.storeAsset), cfg.whitelist, fs)
  {
    if !Truthy(c.meta["collection"]) then Rejected("workshop", MissingCollection)
    else
      var col := svc.collectionNamed(c.meta["collection"]);
      if !Truthy(c.meta["fieldset"]) && col.None? then Fatal
      else
        var fs := if Truthy(c.meta["fieldset"]) then svc.fieldsetNamed(c.meta["fieldset"]) else col.value.fieldset;
        var rules := RequireSlugSource(svc.buildRules(Some(fs), c.fields), SlugName(c.meta));
        if !svc.validates(c.fields, rules) then Rejected("workshop", Invalid)
        else if col.None? then Fatal
        else
          var data := Whitelist(UploadFiles(c.fields, files, fs, svc.storeAsset), cfg.whitelist, fs);
          var date := if col.value.order == "date" then Some(c.meta["date"]) else None;
          var order := if col.value.order != "date" && Truthy(c.meta["order"]) then Some(c.meta["order"]) else None;
          var entry := NewEntry(c.meta["slug"], col.value.path, c.meta["published"], date, order, data);
          Saved(entry, RedirectFor(c.meta["redirect"], svc.urlPath(entry)))
  }

  /** The fieldset of a new entry: the one the form names, else the
      collection's. */
  function EntryFieldset(meta: map<string, Value>, col: Collection, svc: Services): Fieldset
    requires "fieldset" in meta
  {
    if Truthy(meta["fieldset"]) then svc.fieldsetNamed(meta["fieldset"]) else col.fieldset
  }

  /** `update`: failed validation sends the user back (default error bag)
      before any upload or save; otherwise the new fields are merged over
      the stored data and saved once. */
  function Update(c: Classified, content: StoredContent, fieldset: Fieldset, cfg: Config,
                  files: Arr<Value>, svc: Services): (r: Response)
    requires c.meta.Keys == MetaNames
    ensures r.Rejected? || r.Saved?
    ensures r.Rejected? <==> !svc.validates(c.fields, RequireSlugSource(svc.buildRules(Some(fieldset), c.fields), SlugName(c.meta)))
    ensures r.Rejected? ==> r == Rejected("default", Invalid)
    ensures r.Saved? ==> r.content.Existing? && r.content.stored.id == content.id
    ensures r.Saved? ==> r.redirect == RedirectFor(c.meta["redirect"], svc.urlPath(r.content))
    ensures r.Saved? ==>
              var submitted := Whitelist(UploadFiles(c.fields, files, fieldset, svc.storeAsset), cfg.whitelist, fieldset);
              && KeySet(r.content.stored.data) == KeySet(content.data) + KeySet(submitted)
              && (forall k :: k in KeySet(submitted) ==> Get(r.content.stored.data, k) == Get(submitted, k))
              && (forall k :: k !in KeySet(submitted) ==> Get(r.content.stored.data, k) == Get(content.data, k))
  {
    var rules := RequireSlugSource(svc.buildRules(Some(fieldset), c.fields), SlugName(c.meta));
    if !svc.validates(c.fields, rules) then Rejected("default", Invalid)
    else
      var submitted := Whitelist(UploadFiles(c.fields, files, fieldset, svc.storeAsset), cfg.whitelist, fieldset);
      var data: Arr<Value> := Merge(content.data, submitted);
      var saved := Existing(content.(data := data));
      Saved(saved, RedirectFor(c.meta["redirect"], svc.urlPath(saved)))
  }

  /** Whether the fields pass validation against a fieldset's rules, with
      the slug field required. */
  predicate Passes(c: Classified, fieldset: Fieldset, svc: Services)
    requires "slugify" in c.meta
  {
    svc.validates(c.fields, RequireSlugSource(svc.buildRules(Some(fieldset), c.fields), SlugName(c.meta)))
  }

  /** `postEntryUpdate`: the entry is found by `id`; its fieldset is the
      one the form names, else the entry's own. A missing entry is an
      uncaught error as soon as it is used: at once when the form names
      no fieldset, after validation otherwise, so failed validation still
      sends the user back. */
  function PostEntryUpdate(c: Classified, cfg: Config, files: Arr<Value>, svc: Services): (r: Response)
    requires c.meta.Keys == MetaNames
    ensures r == Fatal <==>
              svc.findContent(c.meta["id"]).None?
              && !(Truthy(c.meta["fieldset"]) && !Passes(c, svc.fieldsetNamed(c.meta["fieldset"]), svc))
    ensures svc.findContent(c.meta["id"]).None? && Truthy(c.meta["fieldset"])
              && !Passes(c, svc.fieldsetNamed(c.meta["fieldset"]), svc) ==>
              r == Rejected("default", Invalid)
    ensures svc.findContent(c.meta["id"]).Some? ==>
              var found := svc.findContent(c.meta["id"]).value;
              r == Update(c, found, if Truthy(c.meta["fieldset"]) then svc.fieldsetNamed(c.meta["fieldset"]) else found.fieldset,
                          cfg, files, svc)
  {
    match svc.findContent(c.meta["id"])
    case None =>
      if Truthy(c.meta["fieldset"]) && !Passes(c, svc.fieldsetNamed(c.meta["fieldset"]), svc)
      then Rejected("default", Invalid)
      else Fatal
    case Some(found) =>
      var fs := if Truthy(c.meta["fieldset"]) then svc.fieldsetNamed(c.meta["fieldset"]) else found.fieldset;
      Update(c, found, fs, cfg, files, svc)
  }

  /** `getDefaultFieldset('page')`: the page default when that fieldset
      exists, else the theme's default. */
  function DefaultPageFieldset(cfg: Config, svc: Services): (r: Value)
    ensures svc.fieldsetExists(cfg.defaultPageFieldset) ==> r == cfg.defaultPageFieldset
    ensures !svc.fieldsetExists(cfg.defaultPageFieldset) ==> r == cfg.defaultFieldset
  {
    if svc.fieldsetExists(cfg.defaultPageFieldset) then cfg.defaultPageFieldset else cfg.defaultFieldset
  }

  /** `postPageCreate`: failed validation sends the user back (default
      error bag); otherwise a page is created at `parent` + `slug`. */
  function PostPageCreate(c: Classified, cfg: Config, files: Arr<Value>, svc: Services): (r: Response)
    requires c.meta.Keys == MetaNames
    ensures r.Rejected? || r.Saved?
    ensures r.Rejected? ==> r == Rejected("default", Invalid)
    ensures r.Rejected? <==>
              !Passes(c, svc.fieldsetNamed(if Truthy(c.meta["fieldset"]) then c.meta["fieldset"] else DefaultPageFieldset(cfg, svc)), svc)
    ensures r.Saved? ==> r.content.NewPage? && r.content.url == svc.assembleUrl(c.meta["parent"], c.meta["slug"])
    ensures r.Saved? ==> r.redirect == RedirectFor(c.meta["redirect"], svc.urlPath(r.content))
    ensures r.Saved? ==>
              var fs := svc.fieldsetNamed(if Truthy(c.meta["fieldset"]) then c.meta["fieldset"] else DefaultPageFieldset(cfg, svc));
              r.content.data == Whitelist(UploadFiles(c.fields, files, fs, svc.storeAsset), cfg.whitelist, fs)
  {
    var fs := svc.fieldsetNamed(if Truthy(c.meta["fieldset"]) then c.meta["fieldset"] else DefaultPageFieldset(cfg, svc));
    var rules := RequireSlugSource(svc.buildRules(Some(fs), c.fields), SlugName(c.meta));
    if !svc.validates(c.fields, rules) then Rejected("default", Invalid)
    else
      var page := NewPage(svc.assembleUrl(c.meta["parent"], c.meta["slug"]),
                          Whitelist(UploadFiles(c.fields, files, fs, svc.storeAsset), cfg.whitelist, fs));
      Saved(page, RedirectFor(c.meta["redirect"], svc.urlPath(page)))
  }
}

=== FILE: legacy_controller.dfy ===
/** The older form controller (WorkshopController.php at the repository
    root): it keeps the whole request, resolves the content object,
    collection and fieldset up front, whitelists during initialisation and
    always recomputes the slug. */
module LegacyController {
  import opened PhpArray
  import opened PhpValue
  import opened Cms
  import opened Classifier

  /** The controller's state once `init` has run. */
  datatype LegacyState = LegacyState(
    meta: map<string, Value>,
    fields: Arr<Value>,
    factory: Option<StoredContent>,
    collection: Option<Collection>,
    fieldset: Option<Fieldset>)

  /** `startFactory`: the stored content is looked up only when `id` is
      truthy. */
  function StartFactory(meta: map<string, Value>, svc: Services): (r: Option<StoredContent>)
    requires "id" in meta
    ensures !Truthy(meta["id"]) ==> r == None
    ensures Truthy(meta["id"]) ==> r == svc.findContent(meta["id"])
  {
    if Truthy(meta["id"]) then svc.findContent(meta["id"]) else None
  }

  /** The collection handle becomes the collection, when it is truthy and
      names one. */
  function ResolveCollection(meta: map<string, Value>, svc: Services): (r: Option<Collection>)
    requires "collection" in meta
    ensures r.Some? ==> Truthy(meta["collection"]) && r == svc.collectionNamed(meta["collection"])
    ensures Truthy(meta["collection"]) ==> r == svc.collectionNamed(meta["collection"])
    ensures !Truthy(meta["collection"]) ==> r == None
  {
    if Truthy(meta["collection"]) then svc.collectionNamed(meta["collection"]) else None
  }

  /** The fieldset of `setFieldsetAndMore`: the one the form names, else
      the loaded content's, else the collection's, else none. */
  function ResolveFieldset(named: Value, factory: Option<StoredContent>, collection: Option<Collection>,
                           fieldsetNamed: Value -> Fieldset): (r: Option<Fieldset>)
    ensures r.None? <==> !Truthy(named) && factory.None? && collection.None?
    ensures Truthy(named) ==> r == Some(fieldsetNamed(named))
    ensures !Truthy(named) && factory.Some? ==> r == Some(factory.value.fieldset)
    ensures !Truthy(named) && factory.None? && collection.Some? ==> r == Some(collection.value.fieldset)
  {
    if Truthy(named) then Some(fieldsetNamed(named))
    else if factory.Some? then Some(factory.value.fieldset)
    else if collection.Some? then Some(collection.value.fieldset)
    else None
  }

  /** The whitelist step of `setFieldsetAndMore`: it runs only when a
      fieldset was resolved and the flag is on. */
  function WhitelistResolved(fields: Arr<Value>, fieldset: Option<Fieldset>, on: bool): (r: Arr<Value>)
    ensures !(fieldset.Some? && on) ==> r == fields
    ensures fieldset.Some? && on ==>
              forall k :: k in KeySet(r) ==> k in KeySet(fieldset.value.fields) || k == "title"
    ensures fieldset.Some? && on ==>
              forall k :: k in KeySet(r) ==> Get(r, k) == Get(fields, k)
    // Nothing declared is lost: a fieldset field or `title` keeps its slot.
    ensures fieldset.Some? && on ==>
              forall k :: k in KeySet(fieldset.value.fields) || k == "title" ==> Get(r, k) == Get(fields, k)
    // Whitelisting keeps the surviving fields in their original order.
    ensures fieldset.Some? && on ==> Subsequence(r, fields)
  {
    if fieldset.Some? && on then KeepDeclared(fields, fieldset.value) else fields
  }

  /** `slugify`: the slug is always recomputed from the field named by
      `slugify`, else from the first field, whatever slug was submitted. */
  function Slugify(meta: map<string, Value>, fields: Arr<Value>, slugify: Value -> string): (r: map<string, Value>)
    requires "slug" in meta && "slugify" in meta
    ensures r.Keys == meta.Keys
    ensures forall k :: k in r && k != "slug" ==> r[k] == meta[k]
    ensures Get(fields, SlugName(meta)).Some? ==> r["slug"] == Str(slugify(Get(fields, SlugName(meta)).value))
    ensures Get(fields, SlugName(meta)).None? && fields != [] ==> r["slug"] == Str(slugify(fields[0].val))
    ensures fields == [] ==> r["slug"] == Str(slugify(Bool(false)))
  {
    meta["slug" := Str(slugify(SlugSource(fields, SlugName(meta))))]
  }

  /** Everything `init` does after `filter`: load the content, the
      collection and the fieldset, whitelist, and recompute the slug. */
  function Resolve(c: Classified, cfg: Config, svc: Services): (r: LegacyState)
    requires c.meta.Keys == MetaNames
    ensures r.meta.Keys == MetaNames
    ensures KeySet(r.fields) <= KeySet(c.fields)
    ensures !(r.fieldset.Some? && cfg.whitelist) ==> r.fields == c.fields
    ensures r.factory == StartFactory(r.meta, svc)
    ensures r.fieldset == ResolveFieldset(c.meta["fieldset"], r.factory, ResolveCollection(c.meta, svc), svc.fieldsetNamed)
    ensures r.meta["slug"] == Str(svc.slugify(SlugSource(r.fields, SlugName(r.meta))))
    ensures forall k :: k in MetaNames && k != "slug" ==> r.meta[k] == c.meta[k]
    ensures r.collection == ResolveCollection(c.meta, svc)
    ensures r.fields == WhitelistResolved(c.fields, r.fieldset, cfg.whitelist)
    // Fields are only removed: every kept field keeps its classified value.
    ensures forall k :: k in KeySet(r.fields) ==> Get(r.fields, k) == Get(c.fields, k)
  {
    var factory := StartFactory(c.meta, svc);
    var collection := ResolveCollection(c.meta, svc);
    var fieldset := ResolveFieldset(c.meta["fieldset"], factory, collection, svc.fieldsetNamed);
    var fields := WhitelistResolved(c.fields, fieldset, cfg.whitelist);
    forall k | k in KeySet(fields) ensures k in KeySet(c.fields) {
      assert Get(fields, k) == Get(c.fields, k);
    }
    LegacyState(Slugify(c.meta, fields, svc.slugify), fields, factory, collection, fieldset)
  }

  /** `init`: refuse a user the configuration does not allow; otherwise
      start from the request. */
  function Init(request: Arr<Value>, cfg: Config, authenticated: bool, svc: Services): (r: Result<LegacyState>)
    ensures r == Err(Unauthorized) <==> cfg.enforceAuth && !authenticated
    ensures r.Err? && r.error == MalformedMeta ==> HasOverlay(request)
    ensures r == Err(MalformedMeta) <==>
              IsAllowed(cfg.enforceAuth, authenticated) && HasOverlay(request) && svc.decrypt(Get(request, "_meta").value).None?
    ensures r.Ok? <==>
              IsAllowed(cfg.enforceAuth, authenticated) && !(HasOverlay(request) && svc.decrypt(Get(request, "_meta").value).None?)
    ensures r.Ok? ==> r.value.meta.Keys == MetaNames
    ensures r.Ok? ==> r.value.factory == StartFactory(r.value.meta, svc)
    ensures r.Ok? ==>
              && "slug" in r.value.meta && "slugify" in r.value.meta
              && r.value.meta["slug"] == Str(svc.slugify(SlugSource(r.value.fields, SlugName(r.value.meta))))
    ensures r.Ok? ==> forall k :: k in KeySet(r.value.fields) ==> k !in MetaNames
    ensures r.Ok? && HasOverlay(request) ==> "_meta" !in KeySet(r.value.fields)
    ensures r.Ok? && !(r.value.fieldset.Some? && cfg.whitelist) ==>
              forall k :: k !in MetaNames && !(k == "_meta" && HasOverlay(request)) ==>
                Get(r.value.fields, k) == Get(request, k)
    ensures r.Ok? ==> (ClassifyDefault(request, svc.decrypt).Ok?
              && r.value == Resolve(ClassifyDefault(request, svc.decrypt).value, cfg, svc))
  {
    if !IsAllowed(cfg.enforceAuth, authenticated) then Err(Unauthorized)
    else Start(request, cfg, svc)
  }

  /** What `init` does for an allowed user: classify the whole request
      (`_token` and falsy values included), then resolve. */
  function Start(request: Arr<Value>, cfg: Config, svc: Services): (r: Result<LegacyState>)
    ensures r.Err? <==> HasOverlay(request) && svc.decrypt(Get(request, "_meta").value).None?
    ensures r.Err? ==> r.error == MalformedMeta
    ensures r.Ok? ==> (ClassifyDefault(request, svc.decrypt).Ok?
              && r.value == Resolve(ClassifyDefault(request, svc.decrypt).value, cfg, svc))
    ensures r.Ok? ==> r.value.meta.Keys == MetaNames
    ensures r.Ok? ==> r.value.factory == StartFactory(r.value.meta, svc)
    ensures r.Ok? ==>
              && "slug" in r.value.meta && "slugify" in r.value.meta
              && r.value.meta["slug"] == Str(svc.slugify(SlugSource(r.value.fields, SlugName(r.value.meta))))
    ensures r.Ok? ==> forall k :: k in KeySet(r.value.fields) ==> k !in MetaNames
    ensures r.Ok? && HasOverlay(request) ==> "_meta" !in KeySet(r.value.fields)
    ensures r.Ok? && !(r.value.fieldset.Some? && cfg.whitelist) ==>
              forall k :: k !in MetaNames && !(k == "_meta" && HasOverlay(request)) ==>
                Get(r.value.fields, k) == Get(request, k)
  {
    match ClassifyDefault(request, svc.decrypt)
    case Err(e) => Err(e)
    case Ok(c) =>
      ResolvedRequest(request, cfg, svc, c);
      Ok(Resolve(c, cfg, svc))
  }

  /** What `init` keeps of the whole request once it is resolved. */
  lemma ResolvedRequest(request: Arr<Value>, cfg: Config, svc: Services, c: Classified)
    requires ClassifyDefault(request, svc.decrypt) == Ok(c)
    ensures forall k :: k in KeySet(Resolve(c, cfg, svc).fields) ==> k !in MetaNames
    ensures HasOverlay(request) ==> "_meta" !in KeySet(Resolve(c, cfg, svc).fields)
    ensures !(Resolve(c, cfg, svc).fieldset.Some? && cfg.whitelist) ==>
              forall k :: k !in MetaNames && !(k == "_meta" && HasOverlay(request)) ==>
                Get(Resolve(c, cfg, svc).fields, k) == Get(request, k)
  {
    ClassifiedRequest(request, svc.decrypt, c);
  }

  /** What `filter` leaves of the whole request: no meta name, no
      decrypted `_meta`, and every other field as submitted. */
  lemma ClassifiedRequest(request: Arr<Value>, decrypt: Value -> Option<Arr<Value>>, c: Classified)
    requires ClassifyDefault(request, decrypt) == Ok(c)
    ensures forall k :: k in KeySet(c.fields) ==> k !in MetaNames
    ensures HasOverlay(request) ==> "_meta" !in KeySet(c.fields)
    ensures forall k :: k !in MetaNames && !(k == "_meta" && HasOverlay(request)) ==> Get(c.fields, k) == Get(request, k)
  {
    DefaultMetaKeys();
  }

  /** `postEntryCreate`: without a resolved collection the request is
      dumped and ended (`dd`); failed validation sends the user back with
      errors in the `workshop` bag; otherwise an entry is built from the
      fields as `init` left them and saved once. */
  function PostEntryCreate(st: LegacyState, svc: Services): (r: Response)
    requires st.meta.Keys == MetaNames
    ensures r == Fatal <==> st.collection.None?
    ensures r.Rejected? <==>
              st.collection.Some?
              && !svc.validates(st.fields, RequireSlugSource(svc.buildRules(st.fieldset, st.fields), SlugName(st.meta)))
    ensures r.Rejected? ==> r == Rejected("workshop", Invalid)
    ensures r.Saved? ==>
              && r.content.NewEntry?
              && r.content.slug == st.meta["slug"]
              && r.content.published == st.meta["published"]
              && r.content.collectionPath == st.collection.value.path
              && r.content.data == st.fields
              && r.redirect == RedirectFor(st.meta["redirect"], svc.urlPath(r.content))
    ensures r.Saved? ==>
              && (st.collection.value.order == "date" ==> r.content.date == Some(st.meta["date"]) && r.content.order == None)
              && (st.collection.value.order != "date" ==> r.content.date == None)
              && (st.collection.value.order != "date" && Truthy(st.meta["order"]) ==> r.content.order == Some(st.meta["order"]))
              && (!Truthy(st.meta["order"]) ==> r.content.order == None)
  {
    if st.collection.None? then Fatal
    else
      var rules := RequireSlugSource(svc.buildRules(st.fieldset, st.fields), SlugName(st.meta));
      if !svc.validates(st.fields, rules) then Rejected("workshop", Invalid)
      else
        var col := st.collection.value;
        var date := if col.order == "date" then Some(st.meta["date"]) else None;
        var order := if col.order != "date" && Truthy(st.meta["order"]) then Some(st.meta["order"]) else None;
        var entry := NewEntry(st.meta["slug"], col.path, st.meta["published"], date, order, st.fields);
        Saved(entry, RedirectFor(st.meta["redirect"], svc.urlPath(entry)))
  }

  /** `update` (used for entries, pages and globals): failed validation
      sends the user back before the save; without loaded content the
      merge is an uncaught error; otherwise the fields are merged over the
      stored data and saved once. */
  function Update(st: LegacyState, svc: Services): (r: Response)
    requires st.meta.Keys == MetaNames
    ensures r.Rejected? <==> !svc.validates(st.fields, RequireSlugSource(svc.buildRules(st.fieldset, st.fields), SlugName(st.meta)))
    ensures r.Rejected? ==> r == Rejected("default", Invalid)
    ensures r == Fatal <==> !r.Rejected? && st.factory.None?
    ensures r.Saved? ==> r.content.Existing? && st.factory.Some? && r.content.stored.id == st.factory.value.id
    ensures r.Saved? ==>
              && KeySet(r.content.stored.data) == KeySet(st.factory.value.data) + KeySet(st.fields)
              && (forall k :: k in KeySet(st.fields) ==> Get(r.content.stored.data, k) == Get(st.fields, k))
              && (forall k :: k !in KeySet(st.fields) ==> Get(r.content.stored.data, k) == Get(st.factory.value.data, k))
    ensures r.Saved? ==> r.redirect == RedirectFor(st.meta["redirect"], svc.urlPath(r.content))
  {
    var rules := RequireSlugSource(svc.buildRules(st.fieldset, st.fields), SlugName(st.meta));
    if !svc.validates(st.fields, rules) then Rejected("default", Invalid)
    else if st.factory.None? then Fatal
    else
      var data: Arr<Value> := Merge(st.factory.value.data, st.fields);
      var saved := Existing(st.factory.value.(data := data));
      Saved(saved, RedirectFor(st.meta["redirect"], svc.urlPath(saved)))
  }
}

=== FILE: legacy_tags.dfy ===
/** The older template tags (WorkshopTags.php at the repository root):
    the opening `<form>` tag with its attribute string, the entry-create
    form, and tag-name dispatch without any login check. */
module LegacyTags {
  import opened PhpArray
  import opened PhpString
  import Tags

  /** `list($param, $value) = explode(':', $attr)` followed by
      `$param . '="' . $value . '" '`: only the first two pieces are used.
      An entry without a colon leaves `$value` unassigned, an undefined
      offset that the framework raises as an error: no pair. */
  function AttrPair(attr: string): (r: Option<string>)
    ensures r.Some? <==> ':' in attr
    ensures r.Some? ==> var pieces := Explode(':', attr);
              |pieces| >= 2 && r.value == pieces[0] + "=\"" + pieces[1] + "\" "
  {
    var pieces := Explode(':', attr);
    ExplodeSplits(':', attr);
    if |pieces| >= 2 then Some(pieces[0] + "=\"" + pieces[1] + "\" ") else None
  }

  /** An entry without a colon fails the form. */
  lemma AttrPairBare(name: string)
    requires ':' !in name
    ensures AttrPair(name) == None
  {
    ExplodeFree(':', name);
  }

  /** A `name:value` entry becomes `name="value" `. */
  lemma AttrPairOf(name: string, value: string)
    requires ':' !in name && ':' !in value
    ensures AttrPair(name + ":" + value) == Some(name + "=\"" + value + "\" ")
  {
    ExplodeCons(':', name, value);
    ExplodeFree(':', value);
    assert name + ":" + value == name + [':'] + value;
  }

  /** Anything after a second colon is dropped: `a:b:c` reads as `a:b`. */
  lemma AttrPairIgnoresRest(name: string, value: string, rest: string)
    requires ':' !in name && ':' !in value
    ensures AttrPair(name + ":" + value + ":" + rest) == AttrPair(name + ":" + value)
  {
    AttrPairOf(name, value);
    var s := name + ":" + value + ":" + rest;
    assert s == name + [':'] + (value + [':'] + rest);
    ExplodeCons(':', name, value + [':'] + rest);
    ExplodeCons(':', value, rest);
  }

  /** The attribute string: each entry's pair, in list order; one entry
      without a colon fails the whole string. */
  function AttrString(attrs: seq<string>): (r: Option<string>)
    ensures r.Some? <==> forall i :: 0 <= i < |attrs| ==> ':' in attrs[i]
  {
    if attrs == [] then Some("")
    else match (AttrPair(attrs[0]), AttrString(attrs[1..]))
      case (Some(p), Some(rest)) => Some(p + rest)
      case _ => None
  }

  /** Attribute lists concatenate: the string of a joined list is the
      join of the strings, so every entry keeps its place. */
  lemma {:induction false} AttrStringAppend(a: seq<string>, b: seq<string>)
    requires AttrString(a).Some? && AttrString(b).Some?
    ensures AttrString(a + b) == Some(AttrString(a).value + AttrString(b).value)
    decreases |a|
  {
    if a != [] {
      assert (a + b)[0] == a[0] && (a + b)[1..] == a[1..] + b;
      assert AttrPair(a[0]).Some? && AttrString(a[1..]).Some?;
      AttrStringAppend(a[1..], b);
      var head, restA, restB := AttrPair(a[0]).value, AttrString(a[1..]).value, AttrString(b).value;
      assert AttrString(a) == Some(head + restA);
      assert AttrString(a + b) == Some(head + (restA + restB));
      assert head + (restA + restB) == (head + restA) + restB;
    } else {
      assert a + b == b;
      assert AttrString(a).value + AttrString(b).value == AttrString(b).value;
    }
  }

  const FormHeadOpen := "<form method=\"POST\" action=\""
  const Enctype := "enctype=\"multipart/form-data\""

  /** `formOpen`: the POST form pointing at the event URL of `action`, then
      the attribute string, then the multipart encoding when `files` is
      set. A colon-less attribute entry fails the tag. */
  function FormOpen(action: string, attrs: seq<string>, files: bool, eventUrl: string -> string): (r: Option<string>)
    ensures r.Some? <==> forall i :: 0 <= i < |attrs| ==> ':' in attrs[i]
    ensures r.Some? ==>
              r.value == FormHeadOpen + eventUrl(action) + "\" " + AttrString(attrs).value
                         + (if files then Enctype else "") + ">"
    ensures r.Some? ==> FormHeadOpen + eventUrl(action) + "\" " <= r.value && r.value[|r.value| - 1] == '>'
    ensures r.Some? && attrs != [] ==> FormHeadOpen + eventUrl(action) + "\" " + AttrPair(attrs[0]).value <= r.value
    ensures r.Some? && files ==> r.value[|r.value| - |Enctype| - 1..] == Enctype + ">"
    ensures attrs == [] && !files ==> r == Some(FormHeadOpen + eventUrl(action) + "\" >")
  {
    match AttrString(attrs)
    case None => None
    case Some(attrStr) =>
      var head := FormHeadOpen + eventUrl(action) + "\" ";
      var tail := (if files then Enctype else "") + ">";
      var r := head + attrStr + tail;
      assert r == head + (attrStr + tail);
      assert attrs != [] ==> attrStr == AttrPair(attrs[0]).value + AttrString(attrs[1..]).value;
      assert attrs == [] && !files ==> r == FormHeadOpen + eventUrl(action) + "\" >";
      Some(r)
  }

  /** `entryCreate`: the opened form, the tag's rendered contents unchanged,
      and the closing tag; it fails when the form does. */
  function EntryCreateHtml(attrs: seq<string>, files: bool, eventUrl: string -> string, contents: string): (r: Option<string>)
    ensures r.Some? <==> FormOpen("entry.create", attrs, files, eventUrl).Some?
    ensures r.Some? ==> var open := FormOpen("entry.create", attrs, files, eventUrl).value;
              && open <= r.value
              && |r.value| == |open| + |contents| + 7
              && r.value[|open|..|open| + |contents|] == contents
              && r.value[|r.value| - 7..] == "</form>"
  {
    match FormOpen("entry.create", attrs, files, eventUrl)
    case None => None
    case Some(open) =>
      var r := open + contents + "</form>";
      assert r[|open|..|open| + |contents|] == contents;
      Some(r)
  }

  /** `__call`: the handler named by the tag runs whenever it exists;
      there is no login check. */
  function Dispatch(tag: string, handlers: set<string>, camelize: string -> string): (r: Option<string>)
    ensures r.Some? <==> Tags.HandlerName(tag, camelize) in handlers
    ensures r.Some? ==> r.value == Tags.HandlerName(tag, camelize)
  {
    var name := Tags.HandlerName(tag, camelize);
    if name in handlers then Some(name) else None
  }
}

=== FILE: listener.dfy ===
/** The oldest version (WorkshopListener.php): an event listener that
    reads the whole request, strips seven meta attributes into their own
    slots without coercing them, loads the fieldset, always computes the
    slug, and creates an entry. */
module Listener {
  import opened PhpArray
  import opened PhpValue
  import opened Cms
  import opened Classifier

  /** The seven attributes this version treats as meta. */
  const ListenerMetaNames: set<string> :=
    {"collection", "date", "fieldset", "published", "redirect", "slug", "slugify"}

  /** The attributes' initial values: published, and the title as slug
      source. */
  const ListenerDefaults: map<string, Value> :=
    map["collection" := Null, "date" := Null, "fieldset" := Null, "published" := Bool(true),
        "redirect" := Null, "slug" := Null, "slugify" := Str("title")]

  lemma ListenerDefaultsKeys()
    ensures ListenerDefaults.Keys == ListenerMetaNames
    ensures "id" !in ListenerMetaNames && "order" !in ListenerMetaNames
    ensures "parent" !in ListenerMetaNames && "_meta" !in ListenerMetaNames && "_token" !in ListenerMetaNames
  {
  }

  /** Values are stored as submitted. */
  function Raw(v: Value): Value
  {
    v
  }

  /** The listener once constructed. */
  datatype ListenerState = ListenerState(
    meta: map<string, Value>,
    fields: Arr<Value>,
    slug: Value,
    fieldset: Option<Fieldset>)

  /** `filter`: each field named like a meta attribute is stored in that
      attribute, as submitted, and removed from the fields. */
  function ListenerFilter(request: Arr<Value>): (r: Classified)
    ensures r.meta.Keys == ListenerMetaNames
    ensures forall k :: k in ListenerMetaNames ==>
              r.meta[k] == (if Get(request, k).Some? then Get(request, k).value else ListenerDefaults[k])
    ensures forall k :: k in KeySet(r.fields) ==> k !in ListenerMetaNames
    ensures forall k :: k !in ListenerMetaNames ==> Get(r.fields, k) == Get(request, k)
    ensures Subsequence(r.fields, request)
  {
    ListenerDefaultsKeys();
    var keep := (e: Entry<Value>) => e.key !in ListenerMetaNames;
    var rest: Arr<Value> := Filter(request, keep);
    forall k ensures Get(rest, k) == (if k in ListenerMetaNames then None else Get(request, k)) {
      GetFilter(request, keep, k);
    }
    Classified(Overlay(ListenerDefaults, request, Raw), rest)
  }

  /** `setFieldset`: a truthy fieldset attribute names the fieldset. */
  function ListenerFieldset(named: Value, fieldsetNamed: Value -> Fieldset): (r: Option<Fieldset>)
    ensures r.Some? <==> Truthy(named)
    ensures r.Some? ==> r.value == fieldsetNamed(named)
  {
    if Truthy(named) then Some(fieldsetNamed(named)) else None
  }

  /** The constructor: `filter`, `setFieldset`, then `slugify`, which
      computes the slug whatever was submitted. */
  function Construct(request: Arr<Value>, svc: Services): (r: ListenerState)
    ensures r.meta.Keys == ListenerMetaNames
    ensures forall k :: k in ListenerMetaNames ==>
              r.meta[k] == (if Get(request, k).Some? then Get(request, k).value else ListenerDefaults[k])
    ensures forall k :: k in KeySet(r.fields) ==> k !in ListenerMetaNames
    ensures forall k :: k !in ListenerMetaNames ==> Get(r.fields, k) == Get(request, k)
    // The fields are `filter`'s, in request order, so the first field below
    // is the request's first non-meta field.
    ensures r.fields == ListenerFilter(request).fields
    ensures Subsequence(r.fields, request)
    ensures r.fieldset == ListenerFieldset(r.meta["fieldset"], svc.fieldsetNamed)
    ensures Get(r.fields, SlugName(r.meta)).Some? ==>
              r.slug == Str(svc.slugify(Get(r.fields, SlugName(r.meta)).value))
    ensures Get(r.fields, SlugName(r.meta)).None? && r.fields != [] ==>
              r.slug == Str(svc.slugify(r.fields[0].val))
    ensures r.fields == [] ==> r.slug == Str(svc.slugify(Bool(false)))
  {
    var c := ListenerFilter(request);
    ListenerState(c.meta, c.fields, Str(svc.slugify(SlugSource(c.fields, SlugName(c.meta)))),
                  ListenerFieldset(c.meta["fieldset"], svc.fieldsetNamed))
  }

  /** `id`, `order`, `parent`, `_meta` and `_token` are not meta here: they
      stay content fields with their submitted values. */
  lemma ListenerKeepsNonMeta(request: Arr<Value>, svc: Services, k: string)
    requires k in {"id", "order", "parent", "_meta", "_token"}
    ensures Get(Construct(request, svc).fields, k) == Get(request, k)
  {
    ListenerDefaultsKeys();
    assert k !in ListenerMetaNames;
  }

  /** `entryCreate`: a failed validation goes back before anything is
      created; otherwise a dated entry is created from the fields and saved,
      and a truthy redirect then reads an undefined variable. */
  function EntryCreate(st: ListenerState, svc: Services): (r: Response)
    requires st.meta.Keys == ListenerMetaNames
    ensures r.Rejected? <==> !svc.validates(st.fields, svc.buildRules(st.fieldset, st.fields))
    ensures r.Rejected? ==> r == Rejected("default", Invalid)
    ensures r.Saved? <==> svc.validates(st.fields, svc.buildRules(st.fieldset, st.fields)) && !Truthy(st.meta["redirect"])
    ensures r.Saved? ==> r.content == NewDatedEntry(st.slug, st.meta["collection"], st.fields) && r.redirect == Back
  {
    if !svc.validates(st.fields, svc.buildRules(st.fieldset, st.fields)) then Rejected("default", Invalid)
    else if Truthy(st.meta["redirect"]) then Fatal
    else Saved(NewDatedEntry(st.slug, st.meta["collection"], st.fields), Back)
  }
}

=== FILE: php_array.dfy ===
/** Ordered PHP arrays with string keys, as the request data, the rule
    map, the meta payload and content data are all handled by the addon.

    A PHP array is an ordered sequence of key/value slots whose keys are
    pairwise distinct; `Distinct` states that invariant and `Arr` is the
    type of sequences that keep it. The functions below are the array
    built-ins the addon relies on: `$a[$k]` (Get), assignment (Set),
    `unset`, `array_filter`/`array_intersect_key` (Filter) and
    `array_merge` (Merge). */
module PhpArray {

  datatype Option<+T> = None | Some(value: T)

  /** One key/value slot of a PHP array. */
  datatype Entry<+V> = Entry(key: string, val: V)

  /** The keys of an array, in order. */
  function Keys<V>(a: seq<Entry<V>>): seq<string>
  {
    if a == [] then [] else [a[0].key] + Keys(a[1..])
  }

  function KeySet<V>(a: seq<Entry<V>>): set<string>
  {
    if a == [] then {} else {a[0].key} + KeySet(a[1..])
  }

  /** No key occurs twice: the invariant of every PHP array. */
  predicate Distinct<V>(a: seq<Entry<V>>)
  {
    a == [] || (a[0].key !in KeySet(a[1..]) && Distinct(a[1..]))
  }

  type Arr<V> = a: seq<Entry<V>> | Distinct(a) witness []

  /** `r` keeps a subset of the slots of `a`, in the same relative order. */
  ghost predicate Subsequence<V>(r: seq<Entry<V>>, a: seq<Entry<V>>)
    decreases |a|
  {
    if r == [] then true
    else if a == [] then false
    else if r[0] == a[0] then Subsequence(r[1..], a[1..])
    else Subsequence(r, a[1..])
  }

  /** `$a[$k]`, with None standing for a missing key. */
  function Get<V>(a: seq<Entry<V>>, k: string): (r: Option<V>)
    ensures r.Some? <==> k in KeySet(a)
    ensures r.Some? ==> Entry(k, r.value) in a
  {
    if a == [] then None
    else if a[0].key == k then Some(a[0].val)
    else Get(a[1..], k)
  }

  lemma {:induction false} KeySetHasEntryKeys<V>(a: seq<Entry<V>>, e: Entry<V>)
    requires e in a
    ensures e.key in KeySet(a)
  {
    if a[0] != e {
      KeySetHasEntryKeys(a[1..], e);
    }
  }

  /** In a PHP array a slot's value is the value its key looks up. */
  lemma {:induction false} GetMember<V>(a: seq<Entry<V>>, e: Entry<V>)
    requires Distinct(a)
    requires e in a
    ensures Get(a, e.key) == Some(e.val)
  {
    if a[0] != e {
      assert e in a[1..];
      KeySetHasEntryKeys(a[1..], e);
      GetMember(a[1..], e);
    }
  }

  /** `$a[$k] = $v`: an existing key keeps its position, a new key is
      appended at the end. */
  function Set<V>(a: seq<Entry<V>>, k: string, v: V): (r: seq<Entry<V>>)
    ensures KeySet(r) == KeySet(a) + {k}
    ensures Get(r, k) == Some(v)
    ensures forall j :: j != k ==> Get(r, j) == Get(a, j)
    ensures Distinct(a) ==> Distinct(r)
    ensures k in KeySet(a) ==> Keys(r) == Keys(a)
    ensures k !in KeySet(a) ==> r == a + [Entry(k, v)]
  {
    if a == [] then [Entry(k, v)]
    else if a[0].key == k then [Entry(k, v)] + a[1..]
    else [a[0]] + Set(a[1..], k, v)
  }

  /** The slots of `a` that satisfy `keep`, in order: `array_filter`,
      `array_intersect_key` and repeated `unset` are all of this shape. */
  function Filter<V>(a: seq<Entry<V>>, keep: Entry<V> -> bool): (r: seq<Entry<V>>)
    ensures forall i :: 0 <= i < |r| ==> r[i] in a && keep(r[i])
    ensures forall i :: 0 <= i < |a| && keep(a[i]) ==> a[i] in r
    ensures KeySet(r) <= KeySet(a)
    ensures Distinct(a) ==> Distinct(r)
    ensures Subsequence(r, a)
  {
    if a == [] then []
    else if keep(a[0]) then [a[0]] + Filter(a[1..], keep)
    else Filter(a[1..], keep)
  }

  /** Looking a key up after filtering a PHP array. */
  lemma {:induction false} GetFilter<V>(a: seq<Entry<V>>, keep: Entry<V> -> bool, k: string)
    requires Distinct(a)
    ensures Get(Filter(a, keep), k) ==
            (if Get(a, k).Some? && keep(Entry(k, Get(a, k).value)) then Get(a, k) else None)
  {
    var r := Filter(a, keep);
    match Get(r, k)
    case Some(v) =>
      assert Entry(k, v) in a;
      GetMember(a, Entry(k, v));
    case None =>
      if Get(a, k).Some? && keep(Entry(k, Get(a, k).value)) {
        assert Entry(k, Get(a, k).value) in r;
        KeySetHasEntryKeys(r, Entry(k, Get(a, k).value));
        assert false;
      }
  }

  /** `unset($a[$k])`. */
  function Unset<V>(a: seq<Entry<V>>, k: string): (r: seq<Entry<V>>)
    requires Distinct(a)
    ensures Distinct(r)
    ensures KeySet(r) == KeySet(a) - {k}
    ensures forall j :: j != k ==> Get(r, j) == Get(a, j)
    ensures Subsequence(r, a)
  {
    var r := Filter(a, (e: Entry<V>) => e.key != k);
    forall j | j != k
      ensures Get(r, j) == Get(a, j)
    {
      GetFilter(a, (e: Entry<V>) => e.key != k, j);
    }
    forall j | j in KeySet(a) - {k}
      ensures j in KeySet(r)
    {
      assert Get(r, j) == Get(a, j);
    }
    GetFilter(a, (e: Entry<V>) => e.key != k, k);
    r
  }

  /** `array_merge($base, $over)` for string keys: every slot of `over`
      is assigned in order over `base`. */
  function Merge<V>(base: seq<Entry<V>>, over: seq<Entry<V>>): (r: seq<Entry<V>>)
    requires Distinct(over)
    ensures KeySet(r) == KeySet(base) + KeySet(over)
    ensures forall k :: Get(r, k) == (if k in KeySet(over) then Get(over, k) else Get(base, k))
    ensures Distinct(base) ==> Distinct(r)
    ensures |Keys(base)| <= |Keys(r)| && Keys(r)[..|Keys(base)|] == Keys(base)
    decreases |over|
  {
    if over == [] then
      base
    else
      var mid := Set(base, over[0].key, over[0].val);
      var r := Merge(mid, over[1..]);
      assert Keys(over) == [over[0].key] + Keys(over[1..]);
      KeysPrefixAfterSet(base, over[0].key, over[0].val);
      r
  }

  lemma KeysPrefixAfterSet<V>(a: seq<Entry<V>>, k: string, v: V)
    ensures |Keys(a)| <= |Keys(Set(a, k, v))|
    ensures Keys(Set(a, k, v))[..|Keys(a)|] == Keys(a)
  {
    if k !in KeySet(a) {
      KeysAppend(a, [Entry(k, v)]);
    }
  }

  lemma {:induction false} KeysAppend<V>(a: seq<Entry<V>>, b: seq<Entry<V>>)
    ensures Keys(a + b) == Keys(a) + Keys(b)
  {
    if a != [] {
      assert (a + b)[1..] == a[1..] + b;
      KeysAppend(a[1..], b);
    } else {
      assert a + b == b;
    }
  }

  lemma {:induction false} SubsequenceTrans<V>(a: seq<Entry<V>>, b: seq<Entry<V>>, c: seq<Entry<V>>)
    requires Subsequence(a, b) && Subsequence(b, c)
    ensures Subsequence(a, c)
    decreases |c|
  {
    if a != [] {
      assert b != [] && c != [];
      if b[0] == c[0] {
        if a[0] == b[0] {
          SubsequenceTrans(a[1..], b[1..], c[1..]);
        } else {
          SubsequenceTrans(a, b[1..], c[1..]);
        }
      } else {
        SubsequenceTrans(a, b, c[1..]);
        if a[0] == c[0] {
          SubsequenceDropHead(a, c[1..]);
        }
      }
    }
  }

  lemma {:induction false} SubsequenceDropHead<V>(a: seq<Entry<V>>, c: seq<Entry<V>>)
    requires a != [] && Subsequence(a, c)
    ensures Subsequence(a[1..], c)
    decreases |c|, 0
  {
    if a[1..] != [] {
      if a[0] == c[0] {
        SubsequenceSkip(a[1..], c[1..], c[0]);
        assert c == [c[0]] + c[1..];
      } else {
        SubsequenceDropHead(a, c[1..]);
        SubsequenceSkip(a[1..], c[1..], c[0]);
        assert c == [c[0]] + c[1..];
      }
    }
  }

  lemma {:induction false} SubsequenceSkip<V>(a: seq<Entry<V>>, c: seq<Entry<V>>, x: Entry<V>)
    requires Subsequence(a, c)
    ensures Subsequence(a, [x] + c)
    decreases |c|, 1
  {
    var xc := [x] + c;
    assert xc[1..] == c;
    if a != [] && a[0] == x {
      if a[1..] != [] {
        SubsequenceDropHead(a, c);
      }
    }
  }
}

=== FILE: php_string.dfy ===
/** The string built-ins the addon uses on rule strings, attribute lists,
    error keys and tag names. */
module PhpString {

  /** `explode($sep, $s)` for a one-character separator: the pieces
      between separators, in order; there is always at least one. */
  function Explode(sep: char, s: string): (r: seq<string>)
    ensures |r| >= 1
    ensures forall i :: 0 <= i < |r| ==> sep !in r[i]
    decreases |s|
  {
    if s == [] then [""]
    else
      var rest := Explode(sep, s[1..]);
      if s[0] == sep then [""] + rest
      else [[s[0]] + rest[0]] + rest[1..]
  }

  /** A string splits into more than one piece exactly when it contains
      the separator. */
  lemma {:induction false} ExplodeSplits(sep: char, s: string)
    ensures |Explode(sep, s)| >= 2 <==> sep in s
    decreases |s|
  {
    if s != [] {
      ExplodeSplits(sep, s[1..]);
      assert sep in s <==> s[0] == sep || sep in s[1..];
    }
  }

  /** `join($sep, $parts)`. */
  function Implode(sep: char, parts: seq<string>): string
  {
    if parts == [] then ""
    else if |parts| == 1 then parts[0]
    else parts[0] + [sep] + Implode(sep, parts[1..])
  }

  /** Joining the pieces of a string gives the string back. */
  lemma {:induction false} ImplodeExplode(sep: char, s: string)
    ensures Implode(sep, Explode(sep, s)) == s
    decreases |s|
  {
    if s != [] {
      var rest := Explode(sep, s[1..]);
      ImplodeExplode(sep, s[1..]);
      if s[0] == sep {
        assert ([""] + rest)[1..] == rest;
        assert [s[0]] + s[1..] == s;
      } else {
        var r := [[s[0]] + rest[0]] + rest[1..];
        if |rest| == 1 {
          assert Implode(sep, rest) == rest[0];
          assert s == [s[0]] + s[1..];
        } else {
          assert r[1..] == rest[1..];
          assert Implode(sep, rest) == rest[0] + [sep] + Implode(sep, rest[1..]);
          assert s == [s[0]] + s[1..];
        }
      }
    }
  }

  lemma {:induction false} ExplodeFree(sep: char, p: string)
    requires sep !in p
    ensures Explode(sep, p) == [p]
    decreases |p|
  {
    if p != [] {
      assert sep !in p[1..];
      ExplodeFree(sep, p[1..]);
      assert [p[0]] + p[1..] == p;
    }
  }

  lemma {:induction false} ExplodeCons(sep: char, p: string, rest: string)
    requires sep !in p
    ensures Explode(sep, p + [sep] + rest) == [p] + Explode(sep, rest)
    decreases |p|
  {
    if p == [] {
      assert p + [sep] + rest == [sep] + rest;
      assert ([sep] + rest)[1..] == rest;
    } else {
      var s := p + [sep] + rest;
      assert s[1..] == p[1..] + [sep] + rest;
      assert sep !in p[1..];
      ExplodeCons(sep, p[1..], rest);
      assert [p[0]] + p[1..] == p;
    }
  }

  /** Splitting a join of separator-free pieces gives the pieces back. */
  lemma {:induction false} ExplodeImplode(sep: char, parts: seq<string>)
    requires |parts| >= 1
    requires forall i :: 0 <= i < |parts| ==> sep !in parts[i]
    ensures Explode(sep, Implode(sep, parts)) == parts
    decreases |parts|
  {
    if |parts| == 1 {
      ExplodeFree(sep, parts[0]);
    } else {
      ExplodeImplode(sep, parts[1..]);
      ExplodeCons(sep, parts[0], Implode(sep, parts[1..]));
      assert [parts[0]] + parts[1..] == parts;
    }
  }

  /** Joining one more piece adds a separator and that piece at the end. */
  lemma {:induction false} ImplodeSnoc(sep: char, parts: seq<string>, last: string)
    requires |parts| >= 1
    ensures Implode(sep, parts + [last]) == Implode(sep, parts) + [sep] + last
    decreases |parts|
  {
    var whole := parts + [last];
    assert whole[0] == parts[0] && whole[1..] == parts[1..] + [last];
    if |parts| > 1 {
      ImplodeSnoc(sep, parts[1..], last);
    } else {
      assert whole[1..] == [last];
    }
  }

  /** Stringy's `removeLeft($s, $prefix)`. */
  function RemoveLeft(s: string, prefix: string): (r: string)
    ensures prefix <= s ==> prefix + r == s
    ensures !(prefix <= s) ==> r == s
  {
    if prefix <= s then s[|prefix|..] else s
  }

  /** `str_replace($from, $to, $s)` for single characters. */
  function ReplaceChar(s: string, from: char, to: char): (r: string)
    ensures |r| == |s|
    ensures forall i :: 0 <= i < |s| ==> r[i] == (if s[i] == from then to else s[i])
  {
    if s == [] then []
    else [if s[0] == from then to else s[0]] + ReplaceChar(s[1..], from, to)
  }
}

=== FILE: php_value.dfy ===
/** The values a submitted form, a decrypted meta payload or a content
    data map can hold, and the PHP conversions the addon applies to them:
    the boolean cast behind every `if ($x)` and `array_filter`, the
    string conversion behind `"{$x}"`, `current()` and Laravel's
    `array_get`. */
module PhpValue {
  import opened PhpArray

  /** A PHP value. Floats and objects other than uploaded files do not
      occur in the addon's data; `List` is a sequential array and `Dict`
      an array with string keys. */
  datatype Value =
    | Null
    | Bool(b: bool)
    | Int(i: int)
    | Str(s: string)
    | List(items: seq<Value>)
    | Dict(entries: seq<Entry<Value>>)
    | Upload(path: string)

  /** PHP's boolean cast: null, false, 0, "", "0" and the empty array
      are falsy; an uploaded-file object is always truthy. */
  predicate Truthy(v: Value)
  {
    match v
    case Null => false
    case Bool(b) => b
    case Int(i) => i != 0
    case Str(s) => s != "" && s != "0"
    case List(items) => items != []
    case Dict(entries) => entries != []
    case Upload(_) => true
  }

  /** `array_filter($a)` with no callback: keeps exactly the truthy
      slots, in order. */
  function FilterTruthy(a: Arr<Value>): (r: Arr<Value>)
    ensures forall i :: 0 <= i < |r| ==> Truthy(r[i].val)
    ensures forall k :: Get(r, k) == (if Get(a, k).Some? && Truthy(Get(a, k).value) then Get(a, k) else None)
    ensures Subsequence(r, a)
  {
    var keep := (e: Entry<Value>) => Truthy(e.val);
    var r := Filter(a, keep);
    forall k
      ensures Get(r, k) == (if Get(a, k).Some? && Truthy(Get(a, k).value) then Get(a, k) else None)
    {
      GetFilter(a, keep, k);
    }
    r
  }

  /** `current($a)` on a freshly built array: its first value, or false
      when it is empty. */
  function Current(a: seq<Entry<Value>>): Value
  {
    if a == [] then Bool(false) else a[0].val
  }

  /** Laravel's `array_get($a, $k, $default)` for a key without dots:
      the slot's value whenever the key exists, even when that value is
      null; the default only for a missing key. */
  function ArrayGet(a: seq<Entry<Value>>, k: string, default: Value): (r: Value)
    ensures k in KeySet(a) ==> Entry(k, r) in a
    ensures k !in KeySet(a) ==> r == default
  {
    match Get(a, k)
    case Some(v) => v
    case None => default
  }

  function DigitChar(d: nat): char
    requires d < 10
  {
    "0123456789"[d]
  }

  function NatToString(n: nat): string
    decreases n
  {
    if n < 10 then [DigitChar(n)] else NatToString(n / 10) + [DigitChar(n % 10)]
  }

  /** Every decimal numeral is non-empty, and it is "0" only for zero. */
  lemma {:induction false} NatToStringZero(n: nat)
    ensures NatToString(n) != []
    ensures NatToString(n) == "0" <==> n == 0
    decreases n
  {
    if n >= 10 {
      NatToStringZero(n / 10);
      assert |NatToString(n)| >= 2;
    } else {
      assert NatToString(n) == [DigitChar(n)];
      assert "0123456789"[n] == '0' <==> n == 0;
    }
  }

  /** For every scalar, the boolean cast agrees with the string cast: a
      scalar is falsy exactly when it prints as "" or "0". */
  lemma TruthyAgreesWithString(v: Value)
    requires v.Null? || v.Bool? || v.Int? || v.Str?
    ensures Truthy(v) <==> Interpolate(v) != "" && Interpolate(v) != "0"
  {
    if v.Int? {
      if v.i < 0 {
        assert Interpolate(v)[0] == '-';
      } else {
        NatToStringZero(v.i);
      }
    }
  }

  /** PHP's string conversion, as in `"fields.{$x}"`. */
  function Interpolate(v: Value): string
  {
    match v
    case Null => ""
    case Bool(b) => if b then "1" else ""
    case Int(i) => if i < 0 then "-" + NatToString(-i) else NatToString(i)
    case Str(s) => s
    case List(_) => "Array"
    case Dict(_) => "Array"
    case Upload(p) => p
  }
}

=== FILE: tags.dfy ===
/** The current template tags (Workshop/WorkshopTags.php): the encrypted
    meta payload a form carries, the error and success data a form is
    rendered with, which content an edit form shows, and the mapping of
    `workshop:noun:verb` tag names to handlers. */
module Tags {
  import opened PhpArray
  import opened PhpValue
  import opened PhpString
  import opened Cms
  import opened Classifier

  /** A message bag: field key to its messages. */
  type Bag = Arr<seq<string>>

  /** What the session holds for a rendered form: the flashed error bags,
      if any, and whether a success flag was flashed. */
  datatype Session = Session(errors: Option<Arr<Bag>>, flashSuccess: bool)

  /** `getMetaFields`' payload: the tag parameters that name a meta
      attribute, plus `id` set to the content id the tag resolved. */
  function MetaPayload(params: Arr<Value>, id: Value): (r: Arr<Value>)
    ensures KeySet(r) <= MetaNames
    ensures KeySet(r) == (KeySet(params) * MetaNames) + {"id"}
    ensures Get(r, "id") == Some(id)
    ensures forall k :: k != "id" ==> Get(r, k) == (if k in MetaNames then Get(params, k) else None)
  {
    var keep := (e: Entry<Value>) => e.key in MetaNames;
    var named: Arr<Value> := Filter(params, keep);
    forall k ensures Get(named, k) == (if k in MetaNames then Get(params, k) else None) {
      GetFilter(params, keep, k);
    }
    Set(named, "id", id)
  }

  /** A form built from a tag's payload reaches the controller with that
      payload as its meta overlay: every attribute the tag set, and the
      id, override whatever the form's own fields say. */
  lemma PayloadReachesController(params: Arr<Value>, id: Value, fields: Arr<Value>, svc: Services)
    requires Get(fields, "_meta") == Some(Str(svc.encrypt(MetaPayload(params, id))))
    requires Truthy(Str(svc.encrypt(MetaPayload(params, id))))
    requires svc.decrypt(Str(svc.encrypt(MetaPayload(params, id)))) == Some(MetaPayload(params, id))
    ensures ClassifyDefault(fields, svc.decrypt).Ok?
    ensures ClassifyDefault(fields, svc.decrypt).value.meta["id"] == FormatValue(id)
    ensures forall k :: k in MetaNames && k != "id" && Get(params, k).Some? ==>
              ClassifyDefault(fields, svc.decrypt).value.meta[k] == FormatValue(Get(params, k).value)
  {
    DefaultMetaKeys();
    PayloadIsOverlay(params, id, fields, svc);
    var payload := MetaPayload(params, id);
    OverlayDecides(DefaultMeta, fields, svc.decrypt, payload);
    forall k | k in MetaNames && k != "id" && Get(params, k).Some?
      ensures Get(payload, k) == Get(params, k)
    {
    }
  }

  /** A decrypting overlay makes classification succeed, and every meta
      key the overlay carries takes the overlay's coerced value. */
  lemma OverlayDecides(meta: map<string, Value>, fields: Arr<Value>, decrypt: Value -> Option<Arr<Value>>, overlay: Arr<Value>)
    requires "_meta" !in meta
    requires HasOverlay(fields) && decrypt(Get(fields, "_meta").value) == Some(overlay)
    ensures Classify(meta, fields, decrypt).Ok?
    ensures forall k :: k in meta && Get(overlay, k).Some? ==>
              Classify(meta, fields, decrypt).value.meta[k] == FormatValue(Get(overlay, k).value)
  {
    assert OverlayOf(fields, decrypt) == overlay;
  }

  /** The encrypted payload field is the overlay the classifier applies. */
  lemma PayloadIsOverlay(params: Arr<Value>, id: Value, fields: Arr<Value>, svc: Services)
    requires Get(fields, "_meta") == Some(Str(svc.encrypt(MetaPayload(params, id))))
    requires Truthy(Str(svc.encrypt(MetaPayload(params, id))))
    requires svc.decrypt(Str(svc.encrypt(MetaPayload(params, id)))) == Some(MetaPayload(params, id))
    ensures HasOverlay(fields) && svc.decrypt(Get(fields, "_meta").value).Some?
    ensures OverlayOf(fields, svc.decrypt) == MetaPayload(params, id)
  {
    assert ArrayGet(fields, "_meta", Null) == Str(svc.encrypt(MetaPayload(params, id)));
  }

  /** `hasErrors`: the session has flashed errors with a `workshop` bag. */
  predicate HasErrors(session: Session)
  {
    session.errors.Some? && "workshop" in KeySet(session.errors.value)
  }

  /** The first message of a field, as `$errors[0]` reads it. */
  function FirstMessage(messages: seq<string>): Value
  {
    if messages != [] then Str(messages[0]) else Null
  }

  /** The error keys with their `fields.` prefix removed. */
  function StrippedKeys(bag: seq<Entry<seq<string>>>): set<string>
  {
    if bag == [] then {} else {RemoveLeft(bag[0].key, "fields.")} + StrippedKeys(bag[1..])
  }

  /** The `mapWithKeys` step of `getErrorsAndSuccess`, accumulated into
      `acc`: each field key loses a leading `fields.` and maps to its
      first message; when two keys become one, the later one wins. */
  function ErrorMapInto(acc: Arr<Value>, bag: seq<Entry<seq<string>>>): (r: Arr<Value>)
    ensures KeySet(r) == KeySet(acc) + StrippedKeys(bag)
    ensures forall k :: k !in StrippedKeys(bag) ==> Get(r, k) == Get(acc, k)
    ensures forall i :: 0 <= i < |bag| && LastOfItsKey(bag, i) ==>
              Get(r, RemoveLeft(bag[i].key, "fields.")) == Some(FirstMessage(bag[i].val))
    decreases |bag|
  {
    if bag == [] then acc
    else
      var next: Arr<Value> := Set(acc, RemoveLeft(bag[0].key, "fields."), FirstMessage(bag[0].val));
      var r := ErrorMapInto(next, bag[1..]);
      forall i | 0 <= i < |bag| && LastOfItsKey(bag, i)
        ensures Get(r, RemoveLeft(bag[i].key, "fields.")) == Some(FirstMessage(bag[i].val))
      {
        if i == 0 {
          var tail := bag[1..];
          forall j | 0 <= j < |tail|
            ensures RemoveLeft(tail[j].key, "fields.") != RemoveLeft(bag[0].key, "fields.")
          {
            assert tail[j] == bag[j + 1];
          }
          StrippedKeysExclude(tail, RemoveLeft(bag[0].key, "fields."));
        } else {
          assert bag[1..][i - 1] == bag[i];
          assert LastOfItsKey(bag[1..], i - 1);
        }
      }
      r
  }

  /** No later slot of `bag` loses its prefix to the same key as slot `i`. */
  ghost predicate LastOfItsKey(bag: seq<Entry<seq<string>>>, i: int)
    requires 0 <= i < |bag|
  {
    forall j :: i < j < |bag| ==> RemoveLeft(bag[j].key, "fields.") != RemoveLeft(bag[i].key, "fields.")
  }

  /** A key no slot strips to is not among the stripped keys. */
  lemma {:induction false} StrippedKeysExclude(bag: seq<Entry<seq<string>>>, k: string)
    requires forall j :: 0 <= j < |bag| ==> RemoveLeft(bag[j].key, "fields.") != k
    ensures k !in StrippedKeys(bag)
  {
    if bag != [] {
      forall j | 0 <= j < |bag[1..]| ensures RemoveLeft(bag[1..][j].key, "fields.") != k {
        assert bag[1..][j] == bag[j + 1];
      }
      StrippedKeysExclude(bag[1..], k);
    }
  }

  /** All messages of a bag, in order: `$bag->all()`. */
  function AllMessages(bag: seq<Entry<seq<string>>>): seq<string>
  {
    if bag == [] then [] else bag[0].val + AllMessages(bag[1..])
  }

  function Strs(messages: seq<string>): seq<Value>
  {
    seq(|messages|, i requires 0 <= i < |messages| => Str(messages[i]))
  }

  /** `getErrorsAndSuccess`: `errors` (every message) and `error` (first
      message per field) when the session has a `workshop` bag, and
      `success` when the success flag was flashed. */
  function ErrorsAndSuccess(session: Session): (r: Arr<Value>)
    ensures KeySet(r) <= {"errors", "error", "success"}
    ensures "errors" in KeySet(r) <==> HasErrors(session)
    ensures "error" in KeySet(r) <==> HasErrors(session)
    ensures "success" in KeySet(r) <==> session.flashSuccess
    ensures session.flashSuccess ==> Get(r, "success") == Some(Bool(true))
    ensures HasErrors(session) ==>
              var bag := Get(session.errors.value, "workshop").value;
              && Get(r, "error") == Some(Dict(ErrorMapInto([], bag)))
              && Get(r, "errors") == Some(List(Strs(AllMessages(bag))))
  {
    var errs: Arr<Value> :=
      if HasErrors(session) then
        var bag := Get(session.errors.value, "workshop").value;
        Set(Set([], "errors", List(Strs(AllMessages(bag)))), "error", Dict(ErrorMapInto([], bag)))
      else [];
    if session.flashSuccess then Set(errs, "success", Bool(true)) else errs
  }

  /** The data an edit or delete form is rendered with: `array_merge` of
      the errors and success flags with the content's data, so a content
      field named like a flag wins. */
  function EditData(session: Session, data: Arr<Value>): (r: Arr<Value>)
    ensures KeySet(r) == KeySet(ErrorsAndSuccess(session)) + KeySet(data)
    ensures forall k :: k in KeySet(data) ==> Get(r, k) == Get(data, k)
    ensures forall k :: k !in KeySet(data) ==> Get(r, k) == Get(ErrorsAndSuccess(session), k)
  {
    Merge(ErrorsAndSuccess(session), data)
  }

  /** Errors from a rejected submission land in one bag of the session. */
  function FlashErrors(bagName: string, bag: Bag): Session
  {
    var bags: Arr<Bag> := Set([], bagName, bag);
    Session(Some(bags), false)
  }

  /** A session shows errors exactly when its flashed bag is called
      `workshop`; a session with nothing flashed shows none. */
  lemma FlashedBagVisible(bagName: string, bag: Bag, flashed: bool)
    ensures HasErrors(FlashErrors(bagName, bag)) <==> bagName == "workshop"
    ensures !HasErrors(Session(None, flashed))
  {
  }

  /** Only errors flashed to the `workshop` bag reach a form; update and
      page-create failures use the default bag, so their messages never
      show. */
  lemma DefaultBagIsInvisible(bag: Bag)
    ensures !HasErrors(FlashErrors("default", bag))
    ensures "error" !in KeySet(ErrorsAndSuccess(FlashErrors("default", bag)))
    ensures HasErrors(FlashErrors("workshop", bag))
  {
  }

  /** A tag parameter counts as given when it is set and not null, as
      `isset` decides. */
  predicate IsSet(params: Arr<Value>, k: string)
  {
    Get(params, k).Some? && !Get(params, k).value.Null?
  }

  /** Tags' `get($keys, $default)`: the first of the keys whose parameter
      is set and not null, else the default. */
  function Param(params: Arr<Value>, keys: seq<string>, default: Value): (r: Value)
    ensures keys == [] ==> r == default
    ensures r == default || exists i :: 0 <= i < |keys| && Get(params, keys[i]) == Some(r)
    ensures (forall i :: 0 <= i < |keys| ==> !IsSet(params, keys[i])) ==> r == default
    // Precedence: the value of key i wins exactly when no earlier key is set.
    ensures forall i :: 0 <= i < |keys| && IsSet(params, keys[i]) && (forall j :: 0 <= j < i ==> !IsSet(params, keys[j])) ==>
              r == Get(params, keys[i]).value
    decreases |keys|
  {
    if keys == [] then default
    else if IsSet(params, keys[0]) then Get(params, keys[0]).value
    else
      var rest := Param(params, keys[1..], default);
      ParamShift(params, keys, default, rest);
      rest
  }

  /** When the first key is not set, what holds of the remaining keys
      holds of the whole list: the value comes from one of them or is the
      default, it is the default when none is set, and the precedence is
      the same. */
  lemma ParamShift(params: Arr<Value>, keys: seq<string>, default: Value, rest: Value)
    requires keys != [] && !IsSet(params, keys[0])
    requires rest == default || exists i :: 0 <= i < |keys[1..]| && Get(params, keys[1..][i]) == Some(rest)
    requires (forall i :: 0 <= i < |keys[1..]| ==> !IsSet(params, keys[1..][i])) ==> rest == default
    requires forall i :: 0 <= i < |keys[1..]| && IsSet(params, keys[1..][i]) && (forall j :: 0 <= j < i ==> !IsSet(params, keys[1..][j])) ==>
               rest == Get(params, keys[1..][i]).value
    ensures rest == default || exists i :: 0 <= i < |keys| && Get(params, keys[i]) == Some(rest)
    ensures (forall i :: 0 <= i < |keys| ==> !IsSet(params, keys[i])) ==> rest == default
    ensures forall i :: 0 <= i < |keys| && IsSet(params, keys[i]) && (forall j :: 0 <= j < i ==> !IsSet(params, keys[j])) ==>
              rest == Get(params, keys[i]).value
  {
    if rest != default {
      var i :| 0 <= i < |keys[1..]| && Get(params, keys[1..][i]) == Some(rest);
      assert keys[1..][i] == keys[i + 1];
    }
    if forall i :: 0 <= i < |keys| ==> !IsSet(params, keys[i]) {
      forall i | 0 <= i < |keys[1..]| ensures !IsSet(params, keys[1..][i]) {
        assert keys[1..][i] == keys[i + 1];
      }
    }
    forall i | 0 <= i < |keys| && IsSet(params, keys[i]) && (forall j :: 0 <= j < i ==> !IsSet(params, keys[j]))
      ensures rest == Get(params, keys[i]).value
    {
      assert i > 0;
      assert keys[1..][i - 1] == keys[i];
      forall j | 0 <= j < i - 1 ensures !IsSet(params, keys[1..][j]) {
        assert keys[1..][j] == keys[j + 1];
      }
    }
  }

  /** How a tag finds its content. */
  datatype Locator = ById(id: Value) | ByUrl(url: Value) | BySlug(handle: Value)

  /** `getContent`: by the `id` parameter when it is truthy, otherwise by
      the `url` parameter, which defaults to the current URL. */
  function ContentLocator(params: Arr<Value>, currentUrl: string): (r: Locator)
    ensures Truthy(Param(params, ["id"], Null)) ==> r == ById(Get(params, "id").value)
    ensures !Truthy(Param(params, ["id"], Null)) && IsSet(params, "url") ==>
              r == ByUrl(Get(params, "url").value)
    ensures !Truthy(Param(params, ["id"], Null)) && !IsSet(params, "url") ==> r == ByUrl(Str(currentUrl))
  {
    var url := Param(params, ["url"], Str(currentUrl));
    var id := Param(params, ["id"], Null);
    if Truthy(id) then ById(id) else ByUrl(url)
  }

  /** `globalEdit`: a truthy `id` finds the global like any content;
      otherwise by the first of `handle`, `slug`, `set`, else "global". */
  function GlobalLocator(params: Arr<Value>, currentUrl: string): (r: Locator)
    ensures Truthy(Param(params, ["id"], Null)) ==> r == ContentLocator(params, currentUrl) && r.ById?
    ensures !Truthy(Param(params, ["id"], Null)) ==> r.BySlug?
    ensures !Truthy(Param(params, ["id"], Null))
              && Get(params, "handle").None? && Get(params, "slug").None? && Get(params, "set").None? ==>
              r == BySlug(Str("global"))
    ensures !Truthy(Param(params, ["id"], Null)) && IsSet(params, "handle") ==>
              r == BySlug(Get(params, "handle").value)
    ensures !Truthy(Param(params, ["id"], Null)) && !IsSet(params, "handle") && IsSet(params, "slug") ==>
              r == BySlug(Get(params, "slug").value)
    ensures !Truthy(Param(params, ["id"], Null)) && !IsSet(params, "handle") && !IsSet(params, "slug") && IsSet(params, "set") ==>
              r == BySlug(Get(params, "set").value)
    ensures !Truthy(Param(params, ["id"], Null)) && !IsSet(params, "handle") && !IsSet(params, "slug") && !IsSet(params, "set") ==>
              r == BySlug(Str("global"))
  {
    if Truthy(Param(params, ["id"], Null)) then ContentLocator(params, currentUrl)
    else BySlug(Param(params, ["handle", "slug", "set"], Str("global")))
  }

  /** The handler name for a `workshop:noun:verb` tag: colons become
      underscores, then the name is camel-cased. */
  function HandlerName(tag: string, camelize: string -> string): string
  {
    camelize(ReplaceChar(tag, ':', '_'))
  }

  /** `__call`: the handler runs only when the user is allowed and the
      handler exists; otherwise the tag yields nothing. */
  function Dispatch(tag: string, enforceAuth: bool, authenticated: bool, handlers: set<string>,
                    camelize: string -> string): (r: Option<string>)
    ensures r.Some? <==> IsAllowed(enforceAuth, authenticated) && HandlerName(tag, camelize) in handlers
    ensures r.Some? ==> r.value == HandlerName(tag, camelize)
    ensures enforceAuth && !authenticated ==> r == None
  {
    var name := HandlerName(tag, camelize);
    if IsAllowed(enforceAuth, authenticated) && name in handlers then Some(name) else None
  }
}

=== FILE: versions.dfy ===
/** The three versions side by side: where the current controller, the
    older controller and the listener treat the same request differently,
    and where they agree. */
module Versions {
  import opened PhpArray
  import opened PhpValue
  import opened Cms
  import opened Classifier
  import Controller
  import LegacyController
  import Listener
  import Tags
  import LegacyTags

  /** A slug the user submits survives the current controller's `init`,
      while the older controller replaces it with one made from the slug
      source field. */
  lemma ExplicitSlugVersions(request: Arr<Value>, cfg: Config, authenticated: bool, svc: Services, s: string)
    requires IsAllowed(cfg.enforceAuth, authenticated)
    requires !HasOverlay(request)
    requires Get(request, "slug") == Some(Str(s)) && s != "" && s != "0" && s != "true" && s != "false"
    ensures Controller.Init(request, cfg, authenticated, svc).Ok? ==>
              Controller.Init(request, cfg, authenticated, svc).value.meta["slug"] == Str(s)
    ensures LegacyController.Init(request, cfg, authenticated, svc).Ok?
    ensures var st := LegacyController.Init(request, cfg, authenticated, svc).value;
            st.meta["slug"] == Str(svc.slugify(SlugSource(st.fields, SlugName(st.meta))))
  {
    LatestKeepsSlug(request, cfg, authenticated, svc, s);
    LegacyRecomputesSlug(request, cfg, authenticated, svc);
  }

  lemma LatestKeepsSlug(request: Arr<Value>, cfg: Config, authenticated: bool, svc: Services, s: string)
    requires !HasOverlay(request)
    requires Get(request, "slug") == Some(Str(s)) && s != "" && s != "0" && s != "true" && s != "false"
    ensures Controller.Init(request, cfg, authenticated, svc).Ok? ==>
              Controller.Init(request, cfg, authenticated, svc).value.meta["slug"] == Str(s)
  {
    assert FormatValue(Str(s)) == Str(s);
    assert Truthy(Str(s));
  }

  lemma LegacyRecomputesSlug(request: Arr<Value>, cfg: Config, authenticated: bool, svc: Services)
    requires IsAllowed(cfg.enforceAuth, authenticated)
    requires !HasOverlay(request)
    ensures LegacyController.Init(request, cfg, authenticated, svc).Ok?
    ensures var st := LegacyController.Init(request, cfg, authenticated, svc).value;
            st.meta["slug"] == Str(svc.slugify(SlugSource(st.fields, SlugName(st.meta))))
  {
    var r := LegacyController.Init(request, cfg, authenticated, svc);
    assert r != Err(Unauthorized);
  }

  /** The current controllers coerce "false" to false; the listener keeps
      the string, which PHP reads as true. */
  lemma CoercionVersions(request: Arr<Value>, decrypt: Value -> Option<Arr<Value>>)
    requires Get(request, "published") == Some(Str("false"))
    requires !HasOverlay(request)
    ensures Classify(DefaultMeta, request, decrypt).Ok?
    ensures Classify(DefaultMeta, request, decrypt).value.meta["published"] == Bool(false)
    ensures !Truthy(Classify(DefaultMeta, request, decrypt).value.meta["published"])
    ensures Listener.ListenerFilter(request).meta["published"] == Str("false")
    ensures Truthy(Listener.ListenerFilter(request).meta["published"])
  {
    DefaultMetaKeys();
    assert OverlayOf(request, decrypt) == [];
  }

  /** `id`, `order` and `parent` are meta for the controllers, which take
      them out of the fields, and content fields for the listener. */
  lemma MetaNameVersions(request: Arr<Value>, decrypt: Value -> Option<Arr<Value>>, k: string)
    requires k == "id" || k == "order" || k == "parent"
    requires Classify(DefaultMeta, request, decrypt).Ok?
    ensures k !in KeySet(Classify(DefaultMeta, request, decrypt).value.fields)
    ensures Get(Listener.ListenerFilter(request).fields, k) == Get(request, k)
  {
    DefaultMetaKeys();
    Listener.ListenerDefaultsKeys();
  }

  /** With no content loaded and no collection, the older controller picks
      its fieldset exactly as the listener does. */
  lemma FieldsetVersions(named: Value, fieldsetNamed: Value -> Fieldset)
    ensures LegacyController.ResolveFieldset(named, None, None, fieldsetNamed)
            == Listener.ListenerFieldset(named, fieldsetNamed)
  {
  }

  /** The current tags add a login check to the older dispatch: whatever
      they run, the older tags run too, and for an allowed user they run
      the same handlers. */
  lemma DispatchVersions(tag: string, enforceAuth: bool, authenticated: bool, handlers: set<string>,
                         camelize: string -> string)
    ensures Tags.Dispatch(tag, enforceAuth, authenticated, handlers, camelize).Some? ==>
              LegacyTags.Dispatch(tag, handlers, camelize) == Tags.Dispatch(tag, enforceAuth, authenticated, handlers, camelize)
    ensures IsAllowed(enforceAuth, authenticated) ==>
              LegacyTags.Dispatch(tag, handlers, camelize) == Tags.Dispatch(tag, enforceAuth, authenticated, handlers, camelize)
  {
  }
}
